=== FILE: README.md ===
# Smart expense tracker — a verified model of its core

The expense tracker keeps a list of transactions. Each one has an id, an ISO
calendar date `YYYY-MM-DD`, an amount, a type (`income` or `expense`), a
category and an optional note. The React dashboard derives these views from
the list:

- a date-range filter;
- summary statistics (income, expense, balance, today's expense);
- per-category expense totals;
- a gap-free day-by-day expense trend;
- a paged "Recent Activity" list;
- a CSV export.

It also validates the add-transaction form. When the back end cannot be
reached, it adds or deletes locally. The FastAPI back end stores the table.
It reads the table a window at a time, appends with a fresh id, deletes by id
(404 when absent), and computes the "yearly highlights": the expense day with
the highest sum, the day with the most expense rows, and the category with
the highest sum.

The model has one module per concern:

- `Text`: JavaScript string order, decimal numerals, `split`/`join`.
- `Ledger`: the transaction record. Every view is specified against the same
  "sum/count of the rows a `Rule` selects" functions, `Total` and `Count`.
- `Dates`: Gregorian dates, the next-day step, ISO text. It proves that
  string order of ISO texts is calendar order.
- `Analytics`: the dashboard's derived views. The loops of the source are
  methods with loop invariants.
- `Entry`: validation, custom categories, and the `Dashboard` class whose
  list the submit and delete handlers change.
- `Paging`: the recent-activity pages and their buttons.
- `Export`: the CSV text.
- `Backend`: the `Store` class over the table, and the yearly highlights.

Amounts are integer cents. In three places the code behaves differently from
what a reader might expect, and the model follows the code:

- `categoryData` is not sorted by the code. Its entries come out in the order
  the categories first occur (`Object.entries` insertion order).
  `Analytics.CategoryData` states that order (`FirstExpenseCategories`); the
  code does not sort the entries by value.
- The CSV text has no newline after the last line. An empty list yields a
  header followed by a single newline.
- The final `sort` of `weeklyData` leaves the points in place. The days are
  already strictly ascending in insertion order (`Analytics.DayList`), so
  the model reads the day map in that order. The sort compares with
  `localeCompare`, which agrees with character order on `YYYY-MM-DD` texts:
  they have digits and hyphens at the same positions, and digits collate in
  numeric order.

## Model

| member | source | states |
|---|---|---|
| Text.StrLt | App.tsx:72 | JavaScript's `<` on strings, as its body: the first differing character decides, and a proper prefix comes first; `StrLtIrreflexive`, `StrLtTransitive` and `StrLtTotal` prove it a strict total order |
| Text.StrLe | App.tsx:72 | JavaScript's `<=` on strings, `!(b < a)`, as its body; `StrLeTransitive` proves it transitive |
| Analytics.InRange | App.tsx:72 | the filter's test `t.date >= startDate && t.date <= endDate`, as its body |
| Analytics.FilterByDate | App.tsx:71-73 | the body is the model of the filter; its ensures only bounds the length, and `FilterByDateMembers` and `FilterAppend` state what it keeps and in what order |
| Analytics.FilterByDateMembers | App.tsx:71-73 | the filter keeps exactly the transactions with `startDate <= date <= endDate` in string order |
| Analytics.FilterAppend | App.tsx:72 | the filter keeps relative order: filtering a concatenation concatenates the filtered parts |
| Analytics.ReversedRangeIsEmpty | App.tsx:72 | a start date after the end date keeps nothing |
| Analytics.FilterIsCalendarRange | App.tsx:72 | on ISO dates the string test keeps a transaction exactly when its calendar day lies between the two bound days |
| Dates.IsoOrderIsDateOrder | App.tsx:72 | `<`, `<=` and `==` on ISO texts are `<`, `<=` and `==` on day numbers |
| Dates.IsoCompare | App.tsx:179 | ISO text order is calendar order, and distinct dates have distinct texts |
| Dates.BeforeIsOrdinalOrder | App.tsx:166 | calendar order (year, month, day) is day-number order |
| Dates.Next | App.tsx:168 | the body is the model of `setDate(getDate() + 1)` (the day after, rolling over month and year ends, with leap years); `NextIsNextDay` states its meaning |
| Dates.Iso | App.tsx:167 | the `YYYY-MM-DD` text of a date: ten characters with hyphens at positions 4 and 7; `IsoCompare` and `IsoOrderIsDateOrder` state its order |
| Dates.NextIsNextDay | App.tsx:168 | the next calendar day is a valid date whose day number is one more |
| Dates.DayAtIsNDaysLater | App.tsx:166-169 | advancing n times gives a valid date n days later |
| Dates.SpanLength | App.tsx:164-169 | the inclusive number of days from start to end is 0 exactly when the end is before the start |
| Analytics.ComputeStats | App.tsx:137-148 | `totalIncome` sums the income rows, `totalExpense` all other rows, `todayExpense` the non-income rows dated today, and `balance` is income minus expense after every row |
| Analytics.StatsAreAdditive | App.tsx:139-147 | the totals and the balance of a concatenation are the sums of those of its parts |
| Analytics.TodayWithinTotalExpense | App.tsx:142-143 | with non-negative amounts, today's expense lies between 0 and the total expense |
| Analytics.FirstExpenseCategoriesMembers | App.tsx:153-156 | the categories that get a key are exactly those of the expense rows |
| Analytics.FirstExpenseCategoriesGrow | App.tsx:153-156 | keys are only ever added after the existing ones: the keys of a prefix of the rows come first, in the same order |
| Analytics.CategoryRow | App.tsx:154-155 | one expense row adds its amount to its category's value (starting from 0), appending a new key last; a row of another type changes nothing |
| Analytics.CategoryData | App.tsx:151-157 | the entries name the expense categories in first-occurrence order, each once, covering every expense row's category; each value is that category's expense sum; the values add up to the expense total |
| Analytics.CategoryTotalsMatchTotalExpense | App.tsx:152-156 | when every type is income or expense, the expense total of the category view equals the dashboard's total expense |
| Analytics.DayList | App.tsx:163-169 | the listed days are the ISO texts of start, start+1, … end: as many as the inclusive span, strictly ascending |
| Analytics.ExpensesByDay | App.tsx:170-178 | the day map has exactly the listed days as keys, each holding the sum of the matching expenses of that day; rows on other days are ignored |
| Analytics.WeeklyData | App.tsx:159-180 | one point per calendar day of the range, strictly ascending, each holding that day's expense sum in the selected category or in all of them for "All" |
| Analytics.TrendCoversEveryDay | App.tsx:163-169 | every calendar day of the range is the point at its distance from the start: the series has no gaps |
| Analytics.QuietDayIsZero | App.tsx:170-177 | a day on which no matching expense falls is 0 |
| Entry.Trim | App.tsx:201 | the body is the model of `trim()`, white space removed from both ends by `TrimStart` and `TrimEnd`, whose ensures say exactly what is removed; `TrimEmptyIff` states when the result is empty |
| Entry.TrimEmptyIff | App.tsx:201 | `trim()` leaves nothing exactly when every character is white space |
| Entry.Validate | App.tsx:196-204 | refuses a non-number or an amount `<= 0` first, then a category without a visible character, and accepts otherwise (all three cases as iff) |
| Entry.WithCategory | App.tsx:207-209 | a custom category is appended only when not yet present: the list keeps its prefix, gains only that category, and stays duplicate-free |
| Entry.MaxId | App.tsx:235 | `Math.max(...ids, 0)` is at least 0 and every id, and is 0 or one of the ids |
| Entry.FallbackId | App.tsx:235 | the local id is at least 1 and above every id in the list |
| Entry.FallbackAddKeepsUnique | App.tsx:235-236 | appending with the local id keeps ids unique |
| Entry.Dashboard.constructor | App.tsx:55-79 | the dashboard starts with no transactions and the initial category choices |
| Entry.Dashboard.Load | App.tsx:103-110 | a fetched list replaces the local one |
| Entry.Dashboard.Submit | App.tsx:184-239 | a submission is refused exactly when a check fails (a non-number, an amount of at most 0, a blank category), with the first failing check's message, and then nothing changes; an accepted one records a new custom category, then takes the store's list on success, keeps the list on an error status, or appends the transaction with the local id when the store is unreachable |
| Entry.Dashboard.Delete | App.tsx:241-248 | takes the store's list on success, keeps the list on an error status, and filters out the id when the store is unreachable |
| Entry.LocalDeleteRemovesId | App.tsx:246 | after a local delete no row has the id and every other row is kept |
| Ledger.RemoveId | App.tsx:246 | the body is the model of `transactions.filter(t => t.id !== id)`; its ensures only bounds the length, and `RemoveIdMembers`, `RemoveIdAppend` and `LocalDeleteRemovesId` state what it keeps and in what order |
| Ledger.RemoveIdMembers | App.tsx:246 | the filter keeps exactly the rows of other ids |
| Ledger.RemoveIdAppend | App.tsx:246 | removal keeps the order of the rest: it distributes over concatenation |
| Ledger.RemoveAbsentId | App.tsx:246 | removing an id no row has changes nothing |
| Ledger.RemoveIdKeepsUnique | App.tsx:246 | removal keeps ids unique |
| Export.AmountText | App.tsx:259 | `${t.amount}` for an amount of cents: only digits, a point and a minus sign; `AmountTextRoundTrip` states that it reads back as the amount |
| Export.AmountTextRoundTrip | App.tsx:259 | the printed amount reads back as the amount, so no two amounts print alike |
| Export.CsvLineRoundTrip | App.tsx:259 | without commas in the text fields, a line splits back into id, date, type, category, amount and note (a missing note as empty); the id and amount read back as written |
| Export.CsvLine | App.tsx:259 | the body is the model of the template line, the six fields joined by commas; `CsvLineRoundTrip` and `CommaInNoteAddsField` state what it splits back into |
| Export.CsvText | App.tsx:257-259 | the body is the model of the header, a newline and the lines joined by newlines; `CsvTextRecords` states what it splits back into |
| Export.CsvDataUri | App.tsx:257-259 | the body is the model: the `data:` prefix followed by `CsvText` |
| Export.CsvTextRecords | App.tsx:257-259 | without newlines in the text fields, the file splits into the header `ID,Date,Type,Category,Amount,Note` and one line per transaction in list order (one empty line for an empty list) |
| Export.CommaInNoteAddsField | App.tsx:259 | fields are not quoted: a note holding a comma makes its line split into seven fields |
| Paging.PageCount | App.tsx:543 | `Math.ceil(n / 5)` is the fewest pages of 5 that hold n items |
| Paging.RelativeIndex | App.tsx:505 | a `slice` bound lies within the list and is unchanged when it already does |
| Paging.Slice | App.tsx:505 | `s.slice(begin, end)`, both bounds made indices by `RelativeIndex`, at most the whole list |
| Paging.RecentPage | App.tsx:505 | the body is the model of `slice((recentPage - 1) * 5, recentPage * 5)`; `RecentPageContents`, `PageFill` and `AllPagesShowTheList` state which items it shows |
| Paging.RecentPageContents | App.tsx:505 | page p shows at most 5 items: those from position (p-1)*5 on, in list order |
| Paging.PageFill | App.tsx:505 | pages before the last are full, the last is not empty, and pages after it (still current after the filter shrinks the list) are empty |
| Paging.AllPagesShowTheList | App.tsx:505 | pages 1 to `ceil(n/5)` read in turn show the whole list once, in order |
| Paging.ShowsControls | App.tsx:532 | the buttons are shown exactly when there are more than five items, as its body |
| Paging.AfterClick | App.tsx:533-549 | the body is the model of the two buttons: Prev `max(1, p - 1)`, disabled on page 1; Next `min(ceil(n/5), p + 1)`, disabled on the last page; `ClickBounds`, `ClicksStayInRange` and `PrevNextInverse` state its meaning |
| Paging.ClickBounds | App.tsx:532-549 | from any page, Prev never goes below 1 and Next never past `ceil(n/5)`; from a page past the last, Next goes to the last |
| Paging.ClicksStayInRange | App.tsx:532-549 | from any page, a run of Prev/Next clicks stays at or above 1 and at or below the larger of the starting page and `ceil(n/5)`; so from a page in range it stays in range |
| Paging.PrevNextInverse | App.tsx:536-548 | away from the ends, Prev undoes Next and Next undoes Prev |
| Backend.Window | backend/main.py:55-58 | the rows from position `skip` on, in table order, at most `limit` of them, and as many as there are up to the limit (negative offset as 0, negative limit as none) |
| Backend.WindowsTile | backend/main.py:57 | two adjacent windows read the same rows as one window of both sizes |
| Backend.DefaultWindowIsWholeTable | backend/main.py:56-57 | the default window is the whole table while it has at most 100 rows |
| Backend.Store.constructor | backend/main.py:12 | a newly created table is empty, and its ids are ascending |
| Backend.Store.ReadTransactions | backend/main.py:55-58 | returns the window of the table |
| Backend.NextRowId | backend/main.py:62-65 | the new id is above every id in the table: 1 when it is empty, one above the largest otherwise |
| Backend.Store.CreateTransaction | backend/main.py:60-66 | appends the submitted fields under the new id, returns the stored row, and keeps ids ascending |
| Backend.CreateIdIsFresh | backend/main.py:60-66 | the new id is not in the table, and the table's ids stay ascending |
| Backend.FirstWithId | backend/main.py:70 | the first row of an id, or none exactly when no row has it |
| Backend.Store.DeleteTransaction | backend/main.py:68-75 | answers 404 and changes nothing exactly when no row has the id; otherwise removes that one row and keeps the rest in order |
| Ledger.RemoveUniqueAt | backend/main.py:70-74 | with unique ids, dropping the found row is filtering out its id |
| Backend.DropKeepsAscending | backend/main.py:73 | deleting a row keeps ids ascending |
| Backend.Contributors | backend/main.py:79-87 | the body is the model of the shared `WHERE date LIKE '<year>-%' AND type = 'expense'` filter; its ensures only bounds the length, and `ContributorsMembers` states which rows it keeps |
| Backend.ContributorsMembers | backend/main.py:79-87 | the rows the yearly queries group are exactly the expense rows whose date starts with `<year>-` |
| Backend.Score | backend/main.py:82-127 | the aggregate of one group, as its body: the yearly expense `Total` of a date, their `Count`, or the yearly expense `Total` of a category |
| Backend.Best | backend/main.py:88-90 | the top group is none exactly when there are no candidate rows; otherwise its key is a candidate's key, its value is that key's score, and no candidate's key scores more |
| Backend.Highest | backend/main.py:82-127 | the body is the model of one `GROUP BY ... ORDER BY ... DESC` query's `.first()`: `Best` over `Contributors`; `BestOfContributors` states its meaning |
| Backend.GetYearlyStats | backend/main.py:77-133 | each of the three results is null exactly when the year has no expense rows |
| Backend.BestOfContributors | backend/main.py:82-90 | the top group is the group of an expense row of the year, and no such row's group scores more |
| Backend.HighestSpendingDay | backend/main.py:82-95 | the highest spending day is a date of the year with expenses; its amount is that date's expense sum, and no date of the year sums more |
| Backend.MostFrequentDay | backend/main.py:98-111 | the most frequent day is a date of the year; its count is that date's number of expense rows (income rows not counted), and no date of the year has more |
| Backend.HighestCategory | backend/main.py:114-127 | the highest category has expenses in the year; its amount is that category's yearly expense sum, and no category sums more |
| Backend.OtherRowsDoNotMatter | backend/main.py:79-119 | adding an income row, or a row of another year, changes none of the three results |

## Left out

- Evaluating the amount text (`eval`, then `parseFloat`) is not modelled. `Entry.Validate` takes the value it produced, a number of cents or not-a-number.
- Network requests and their asynchrony are not modelled, nor the switch to the mock list whenever fetching the list fails (on the first load and on the reload after an accepted submit or delete). `Entry.Dashboard.Submit` and `Entry.Dashboard.Delete` take the store's reply (accepted with the reloaded list, an error status, or unreachable) as a parameter.
- Rendering, charts, theme, confirmation dialogs and the long-press timers are left out. So are the modal and form resets after an accepted submit or a local fallback.
- The clock is a parameter. "Today" is the `today` argument of `Analytics.ComputeStats`, and the range bounds are given as dates.
- Parsing the range texts into `Date` values and time-zone effects on `toISOString` are left out.
- `Analytics.DayList` and `Analytics.WeeklyData` require a valid start date. They also require an end date of at most year 9999, since the ISO text is modelled only for four-digit years.
- Floating-point amounts are modelled as integer cents. Sums are exact, and `Export.AmountText` prints cents the way JavaScript prints the amount in units (no exponent form).
- `Export.CsvDataUri`: the `encodeURI` step and the download link are left out. The model stops at the text before encoding.
- Analytics.CategoryData: the totals object is modelled as a map with keys in insertion order. Three JavaScript quirks of a plain `{}` are left out: integer-like keys (a category named "42", say) are listed first; a category named after an inherited member (`toString`, `valueOf`, `constructor`, ...) starts from that function, so its value becomes a string rather than a sum; and a category named `__proto__` is never stored, so its expenses are missing from the entries.
- Text.StrLt: strings are sequences of code points, while JavaScript compares UTF-16 code units. The two orders differ only when a character above U+FFFF meets one from U+E000 to U+FFFF at the same position. Date comparisons are unaffected, since ISO date texts are ASCII.
- `Backend.ContributorsMembers`: `LIKE '<year>-%'` is modelled as a prefix test. Wildcards inside the year text and SQLite's case-insensitive matching are left out.
- `Backend.Best`: the contracts say only that the result is a maximum. The database's order among equal scores is unspecified, and the model's choice (the key met first) is not claimed.
- `Backend.Store.ReadTransactions`: the table is read in creation order, as SQLite returns a table without `ORDER BY` by rowid.
- The ORM setup, the database engine, the test-data seeder, CORS, FastAPI routing and the root greeting have no stateable logic and are left out.

=== FILE: analytics.dfy ===
/** The dashboard's derived views over the transaction list (App.tsx): the
    date-range filter, the summary statistics, the per-category expense
    totals and the day-by-day expense trend. */
module Analytics {
  import opened Text
  import opened Ledger
  import opened Dates

  // ---- date-range filter ----

  /** `t.date >= startDate && t.date <= endDate`, compared as strings. */
  predicate InRange(t: Transaction, startDate: string, endDate: string) {
    StrLe(startDate, t.date) && StrLe(t.date, endDate)
  }

  /** The transactions whose date lies in the inclusive range, in list order. */
  function FilterByDate(txs: seq<Transaction>, startDate: string, endDate: string): (r: seq<Transaction>)
    ensures |r| <= |txs|
  {
    if txs == [] then []
    else
      var last := txs[|txs| - 1];
      FilterByDate(txs[..|txs| - 1], startDate, endDate) + (if InRange(last, startDate, endDate) then [last] else [])
  }

  /** The filter keeps exactly the transactions dated within the range. */
  lemma {:induction false} FilterByDateMembers(txs: seq<Transaction>, startDate: string, endDate: string)
    ensures forall t :: t in FilterByDate(txs, startDate, endDate) <==> t in txs && InRange(t, startDate, endDate)
  {
    if txs != [] {
      var init, last := txs[..|txs| - 1], txs[|txs| - 1];
      FilterByDateMembers(init, startDate, endDate);
      assert txs == init + [last];
    }
  }

  /** The filter keeps the relative order of what it keeps: filtering a
      concatenation concatenates the filtered parts. */
  lemma {:induction false} FilterAppend(a: seq<Transaction>, b: seq<Transaction>, startDate: string, endDate: string)
    ensures FilterByDate(a + b, startDate, endDate) == FilterByDate(a, startDate, endDate) + FilterByDate(b, startDate, endDate)
    decreases |b|
  {
    if b == [] {
      assert a + b == a;
    } else {
      var ab, init, last := a + b, b[..|b| - 1], b[|b| - 1];
      assert ab[..|ab| - 1] == a + init;
      assert ab[|ab| - 1] == last;
      var tail := if InRange(last, startDate, endDate) then [last] else [];
      assert FilterByDate(ab, startDate, endDate) == FilterByDate(a + init, startDate, endDate) + tail;
      assert FilterByDate(b, startDate, endDate) == FilterByDate(init, startDate, endDate) + tail;
      FilterAppend(a, init, startDate, endDate);
    }
  }

  /** A range whose start is after its end keeps nothing. */
  lemma ReversedRangeIsEmpty(txs: seq<Transaction>, startDate: string, endDate: string)
    requires StrLt(endDate, startDate)
    ensures FilterByDate(txs, startDate, endDate) == []
  {
    var r := FilterByDate(txs, startDate, endDate);
    FilterByDateMembers(txs, startDate, endDate);
    if r != [] {
      var t := r[0];
      assert InRange(t, startDate, endDate);
      StrLeTransitive(startDate, t.date, endDate);
      assert false;
    }
  }

  /** On well-formed dates the string comparison is the calendar comparison:
      a transaction dated `d` is kept exactly when `d` lies between the two
      bound dates. */
  lemma FilterIsCalendarRange(t: Transaction, start: Date, end: Date, d: Date)
    requires Printable(start) && Printable(end) && Printable(d)
    requires t.date == Iso(d)
    ensures InRange(t, Iso(start), Iso(end)) <==> Ordinal(start) <= Ordinal(d) <= Ordinal(end)
  {
    IsoOrderIsDateOrder(start, d);
    IsoOrderIsDateOrder(d, end);
  }

  // ---- summary statistics ----

  datatype DashboardStats = DashboardStats(totalIncome: int, totalExpense: int, balance: int, todayExpense: int)

  /** The `reduce` over the filtered list: income rows add to `totalIncome`,
      every other row to `totalExpense` (and to `todayExpense` when dated
      `today`), and `balance` is recomputed after every row. */
  method ComputeStats(txs: seq<Transaction>, today: string) returns (acc: DashboardStats)
    ensures acc.totalIncome == Total(txs, IncomeRows)
    ensures acc.totalExpense == Total(txs, NonIncomeRows)
    ensures acc.todayExpense == Total(txs, NonIncomeOn(today))
    ensures acc.balance == acc.totalIncome - acc.totalExpense
  {
    acc := DashboardStats(0, 0, 0, 0);
    for i := 0 to |txs|
      invariant acc.totalIncome == Total(txs[..i], IncomeRows)
      invariant acc.totalExpense == Total(txs[..i], NonIncomeRows)
      invariant acc.todayExpense == Total(txs[..i], NonIncomeOn(today))
      invariant acc.balance == acc.totalIncome - acc.totalExpense
    {
      var t := txs[i];
      TotalSnoc(txs, i, IncomeRows);
      TotalSnoc(txs, i, NonIncomeRows);
      TotalSnoc(txs, i, NonIncomeOn(today));
      if t.kind == INCOME {
        acc := acc.(totalIncome := acc.totalIncome + t.amount);
      } else {
        acc := acc.(totalExpense := acc.totalExpense + t.amount);
        if t.date == today {
          acc := acc.(todayExpense := acc.todayExpense + t.amount);
        }
      }
      acc := acc.(balance := acc.totalIncome - acc.totalExpense);
    }
    assert txs[..|txs|] == txs;
  }

  /** The statistics are additive: the totals of a concatenation are the sums
      of the parts' totals, and so is the balance. */
  lemma StatsAreAdditive(a: seq<Transaction>, b: seq<Transaction>, today: string)
    ensures Total(a + b, IncomeRows) == Total(a, IncomeRows) + Total(b, IncomeRows)
    ensures Total(a + b, NonIncomeRows) == Total(a, NonIncomeRows) + Total(b, NonIncomeRows)
    ensures Total(a + b, NonIncomeOn(today)) == Total(a, NonIncomeOn(today)) + Total(b, NonIncomeOn(today))
    ensures Total(a + b, IncomeRows) - Total(a + b, NonIncomeRows)
         == (Total(a, IncomeRows) - Total(a, NonIncomeRows)) + (Total(b, IncomeRows) - Total(b, NonIncomeRows))
  {
    TotalAppend(a, b, IncomeRows);
    TotalAppend(a, b, NonIncomeRows);
    TotalAppend(a, b, NonIncomeOn(today));
  }

  /** With non-negative amounts, today's expense is between zero and the total expense. */
  lemma TodayWithinTotalExpense(txs: seq<Transaction>, today: string)
    requires NonNegativeAmounts(txs)
    ensures 0 <= Total(txs, NonIncomeOn(today)) <= Total(txs, NonIncomeRows)
  {
    TotalMonotone(txs, NonIncomeOn(today), NonIncomeRows);
    TotalNonNegative(txs, NonIncomeOn(today));
  }

  lemma {:induction false} TotalNonNegative(txs: seq<Transaction>, r: Rule)
    requires NonNegativeAmounts(txs)
    ensures Total(txs, r) >= 0
  {
    if txs != [] {
      TotalNonNegative(txs[..|txs| - 1], r);
    }
  }

  // ---- per-category expense totals ----

  datatype CategoryTotal = CategoryTotal(name: string, value: int)

  function Names(entries: seq<CategoryTotal>): (r: seq<string>)
    ensures |r| == |entries| && forall i :: 0 <= i < |r| ==> r[i] == entries[i].name
  {
    if entries == [] then [] else Names(entries[..|entries| - 1]) + [entries[|entries| - 1].name]
  }

  function SumValues(entries: seq<CategoryTotal>): int {
    if entries == [] then 0 else SumValues(entries[..|entries| - 1]) + entries[|entries| - 1].value
  }

  /** The sum of `m`'s values at `keys`. */
  function SumOver(keys: seq<string>, m: map<string, int>): int
    requires forall k :: k in keys ==> k in m
  {
    if keys == [] then 0 else SumOver(keys[..|keys| - 1], m) + m[keys[|keys| - 1]]
  }

  lemma {:induction false} SumOverAgree(keys: seq<string>, m1: map<string, int>, m2: map<string, int>)
    requires forall k :: k in keys ==> k in m1 && k in m2 && m1[k] == m2[k]
    ensures SumOver(keys, m1) == SumOver(keys, m2)
  {
    if keys != [] {
      var init := keys[..|keys| - 1];
      assert forall k :: k in init ==> k in keys;
      SumOverAgree(init, m1, m2);
    }
  }

  /** Raising one key's value raises the sum by as much. */
  lemma {:induction false} SumOverRaise(keys: seq<string>, m: map<string, int>, c: string, delta: int)
    requires forall k :: k in keys ==> k in m
    requires Distinct(keys) && c in keys
    ensures SumOver(keys, m[c := m[c] + delta]) == SumOver(keys, m) + delta
  {
    var m' := m[c := m[c] + delta];
    var init, last := keys[..|keys| - 1], keys[|keys| - 1];
    assert forall k :: k in init ==> k in keys;
    if last == c {
      assert c !in init;
      SumOverAgree(init, m, m');
    } else {
      assert c in init by {
        var j :| 0 <= j < |keys| && keys[j] == c;
        assert j < |keys| - 1 && init[j] == c;
      }
      SumOverRaise(init, m, c, delta);
    }
  }

  lemma {:induction false} SumValuesOfEntries(order: seq<string>, data: map<string, int>, entries: seq<CategoryTotal>)
    requires forall k :: k in order ==> k in data
    requires |entries| == |order|
    requires forall j :: 0 <= j < |order| ==> entries[j] == CategoryTotal(order[j], data[order[j]])
    ensures SumValues(entries) == SumOver(order, data)
  {
    if order != [] {
      var n := |order| - 1;
      assert forall k :: k in order[..n] ==> k in order;
      SumValuesOfEntries(order[..n], data, entries[..n]);
    }
  }

  /** The expense categories of `txs`, each once, in the order they first
      occur. */
  function FirstExpenseCategories(txs: seq<Transaction>): (cs: seq<string>)
    ensures Distinct(cs)
  {
    if txs == [] then []
    else
      var init, last := FirstExpenseCategories(txs[..|txs| - 1]), txs[|txs| - 1];
      if last.kind == EXPENSE && last.category !in init then init + [last.category] else init
  }

  /** A category is listed exactly when some expense row has it. */
  lemma {:induction false} FirstExpenseCategoriesMembers(txs: seq<Transaction>)
    ensures forall c :: c in FirstExpenseCategories(txs) <==>
      exists k :: 0 <= k < |txs| && txs[k].kind == EXPENSE && txs[k].category == c
  {
    if txs != [] {
      var n := |txs| - 1;
      var init := txs[..n];
      FirstExpenseCategoriesMembers(init);
      forall c | c in FirstExpenseCategories(txs)
        ensures exists k :: 0 <= k < |txs| && txs[k].kind == EXPENSE && txs[k].category == c
      {
        if c in FirstExpenseCategories(init) {
          var k :| 0 <= k < |init| && init[k].kind == EXPENSE && init[k].category == c;
          assert txs[k] == init[k];
        } else {
          assert txs[n].kind == EXPENSE && txs[n].category == c;
        }
      }
      forall c, k | 0 <= k < |txs| && txs[k].kind == EXPENSE && txs[k].category == c
        ensures c in FirstExpenseCategories(txs)
      {
        if k < n {
          assert init[k] == txs[k];
        }
      }
    }
  }

  /** The list only grows at its end as rows are added: the categories of a
      prefix of the rows come first, in the same order. With
      `FirstExpenseCategoriesMembers` this is first-occurrence order. */
  lemma {:induction false} FirstExpenseCategoriesGrow(txs: seq<Transaction>, k: nat)
    requires k <= |txs|
    ensures FirstExpenseCategories(txs[..k]) <= FirstExpenseCategories(txs)
    decreases |txs|
  {
    if k < |txs| {
      var n := |txs| - 1;
      assert txs[..n][..k] == txs[..k];
      FirstExpenseCategoriesGrow(txs[..n], k);
    } else {
      assert txs[..k] == txs;
    }
  }

  /** What `categoryData`'s loop knows after the first `i` rows: `order`
      lists the keys of `data` once each, every key holds its category's
      expense sum so far, every expense category seen so far is a key, and
      the values add up to the expense total so far. */
  ghost predicate CategoryState(txs: seq<Transaction>, i: nat, data: map<string, int>, order: seq<string>)
    requires i <= |txs|
  {
    && (forall c :: c in data <==> c in order)
    && Distinct(order)
    && (forall c :: c in data ==> data[c] == Total(txs[..i], ExpenseIn(c)) && Count(txs[..i], ExpenseIn(c)) > 0)
    && (forall k :: 0 <= k < i && txs[k].kind == EXPENSE ==> txs[k].category in data)
    && SumOver(order, data) == Total(txs[..i], ExpenseRows)
  }

  lemma CategoryStepSkip(txs: seq<Transaction>, i: nat, data: map<string, int>, order: seq<string>)
    requires i < |txs| && txs[i].kind != EXPENSE
    requires CategoryState(txs, i, data, order)
    ensures CategoryState(txs, i + 1, data, order)
  {
    TotalSnoc(txs, i, ExpenseRows);
    forall c | c in data
      ensures Total(txs[..i + 1], ExpenseIn(c)) == Total(txs[..i], ExpenseIn(c))
      ensures Count(txs[..i + 1], ExpenseIn(c)) == Count(txs[..i], ExpenseIn(c))
    {
      TotalSnoc(txs, i, ExpenseIn(c));
    }
  }

  /** The per-key facts after one expense row of category `c`. */
  lemma CategoryTotalsStep(txs: seq<Transaction>, i: nat, keys: set<string>)
    requires i < |txs| && txs[i].kind == EXPENSE
    ensures forall c' | c' in keys ::
      Total(txs[..i + 1], ExpenseIn(c')) == Total(txs[..i], ExpenseIn(c')) + (if c' == txs[i].category then txs[i].amount else 0) &&
      Count(txs[..i + 1], ExpenseIn(c')) == Count(txs[..i], ExpenseIn(c')) + (if c' == txs[i].category then 1 else 0)
  {
    forall c' | c' in keys
      ensures Total(txs[..i + 1], ExpenseIn(c')) == Total(txs[..i], ExpenseIn(c')) + (if c' == txs[i].category then txs[i].amount else 0)
      ensures Count(txs[..i + 1], ExpenseIn(c')) == Count(txs[..i], ExpenseIn(c')) + (if c' == txs[i].category then 1 else 0)
    {
      TotalSnoc(txs, i, ExpenseIn(c'));
    }
  }

  /** The key order after one more row: a new expense category is appended. */
  lemma CategoryOrderStep(txs: seq<Transaction>, i: nat, data: map<string, int>, order: seq<string>)
    requires i < |txs|
    requires CategoryState(txs, i, data, order) && order == FirstExpenseCategories(txs[..i])
    ensures FirstExpenseCategories(txs[..i + 1]) ==
      if txs[i].kind == EXPENSE && txs[i].category !in data then order + [txs[i].category] else order
  {
    assert txs[..i + 1][..i] == txs[..i];
  }

  /** An expense row of a category already seen raises that category's value. */
  lemma CategoryStepSeen(txs: seq<Transaction>, i: nat, data: map<string, int>, order: seq<string>)
    requires i < |txs| && txs[i].kind == EXPENSE && txs[i].category in data
    requires CategoryState(txs, i, data, order)
    ensures CategoryState(txs, i + 1, data[txs[i].category := data[txs[i].category] + txs[i].amount], order)
  {
    var t, c := txs[i], txs[i].category;
    var data' := data[c := data[c] + t.amount];
    TotalSnoc(txs, i, ExpenseRows);
    CategoryTotalsStep(txs, i, data.Keys);
    SumOverRaise(order, data, c, t.amount);
    assert forall k :: 0 <= k < i + 1 && txs[k].kind == EXPENSE ==> txs[k].category in data';
  }

  /** An expense row of a new category appends that category with the row's amount. */
  lemma CategoryStepNew(txs: seq<Transaction>, i: nat, data: map<string, int>, order: seq<string>)
    requires i < |txs| && txs[i].kind == EXPENSE && txs[i].category !in data
    requires CategoryState(txs, i, data, order)
    ensures CategoryState(txs, i + 1, data[txs[i].category := 0 + txs[i].amount], order + [txs[i].category])
  {
    var t, c := txs[i], txs[i].category;
    var data', order' := data[c := 0 + t.amount], order + [c];
    TotalSnoc(txs, i, ExpenseRows);
    CategoryTotalsStep(txs, i, data'.Keys);
    TotalOfNone(txs[..i], ExpenseIn(c));
    SumOverAgree(order, data, data');
    assert order'[..|order'| - 1] == order;
    assert SumOver(order', data') == SumOver(order, data') + t.amount;
    assert forall k :: 0 <= k < i + 1 && txs[k].kind == EXPENSE ==> txs[k].category in data';
  }

  /** One row of `categoryData`'s loop: an expense row adds its amount to its
      category's value, `data[t.category] = (data[t.category] || 0) + t.amount`,
      a new key going after the others; any other row is filtered out. */
  method CategoryRow(txs: seq<Transaction>, i: nat, data: map<string, int>, order: seq<string>)
    returns (data': map<string, int>, order': seq<string>)
    requires i < |txs|
    requires CategoryState(txs, i, data, order) && order == FirstExpenseCategories(txs[..i])
    ensures CategoryState(txs, i + 1, data', order') && order' == FirstExpenseCategories(txs[..i + 1])
  {
    var t := txs[i];
    CategoryOrderStep(txs, i, data, order);
    data', order' := data, order;
    if t.kind == EXPENSE {
      var before := if t.category in data then data[t.category] else 0;
      if t.category in data {
        CategoryStepSeen(txs, i, data, order);
      } else {
        CategoryStepNew(txs, i, data, order);
        order' := order + [t.category];
      }
      data' := data[t.category := before + t.amount];
    } else {
      CategoryStepSkip(txs, i, data, order);
    }
  }

  /** `categoryData`: one entry per distinct expense category, in the order
      the categories first occur, each holding that category's expense sum. */
  method CategoryData(txs: seq<Transaction>) returns (entries: seq<CategoryTotal>)
    ensures Names(entries) == FirstExpenseCategories(txs)
    ensures Distinct(Names(entries))
    ensures forall i :: 0 <= i < |entries| ==>
      entries[i].value == Total(txs, ExpenseIn(entries[i].name)) && Count(txs, ExpenseIn(entries[i].name)) > 0
    ensures forall k :: 0 <= k < |txs| && txs[k].kind == EXPENSE ==> txs[k].category in Names(entries)
    ensures SumValues(entries) == Total(txs, ExpenseRows)
  {
    var data: map<string, int> := map[];
    // The keys of `data` in insertion order, the order `Object.entries` lists them in.
    var order: seq<string> := [];
    for i := 0 to |txs|
      invariant CategoryState(txs, i, data, order)
      invariant order == FirstExpenseCategories(txs[..i])
    {
      data, order := CategoryRow(txs, i, data, order);
    }
    entries := seq(|order|, j requires 0 <= j < |order| => CategoryTotal(order[j], data[order[j]]));
    assert txs[..|txs|] == txs;
    CategoryDataDone(txs, data, order, entries);
  }

  /** After the last row, the entries built from the map in key order are the
      category view. */
  lemma CategoryDataDone(txs: seq<Transaction>, data: map<string, int>, order: seq<string>, entries: seq<CategoryTotal>)
    requires CategoryState(txs, |txs|, data, order)
    requires order == FirstExpenseCategories(txs)
    requires |entries| == |order|
    requires forall j :: 0 <= j < |order| ==> entries[j] == CategoryTotal(order[j], data[order[j]])
    ensures Names(entries) == FirstExpenseCategories(txs)
    ensures Distinct(Names(entries))
    ensures forall i :: 0 <= i < |entries| ==>
      entries[i].value == Total(txs, ExpenseIn(entries[i].name)) && Count(txs, ExpenseIn(entries[i].name)) > 0
    ensures forall k :: 0 <= k < |txs| && txs[k].kind == EXPENSE ==> txs[k].category in Names(entries)
    ensures SumValues(entries) == Total(txs, ExpenseRows)
  {
    assert txs[..|txs|] == txs;
    SumValuesOfEntries(order, data, entries);
    assert Names(entries) == order;
  }

  /** When every row is income or expense, the category values add up to the
      dashboard's total expense. */
  lemma CategoryTotalsMatchTotalExpense(txs: seq<Transaction>)
    requires KnownKinds(txs)
    ensures Total(txs, ExpenseRows) == Total(txs, NonIncomeRows)
  {
    TotalSameRows(txs, ExpenseRows, NonIncomeRows);
  }

  // ---- day-by-day expense trend ----

  datatype TrendPoint = TrendPoint(date: string, amount: int)

  /** `dates` are the ISO texts of the days from `start` on, one per day. */
  ghost predicate DaysFrom(start: Date, dates: seq<string>)
    requires Valid(start)
  {
    forall k :: 0 <= k < |dates| ==> Printable(DayAt(start, k)) && dates[k] == Iso(DayAt(start, k))
  }

  /** The `while` loop that lists the days of the trend: starting at
      `start`, the date is written out and advanced by one day until it is
      after `end`. */
  method DayList(start: Date, end: Date) returns (dates: seq<string>)
    requires Valid(start) && Printable(end)
    ensures |dates| == SpanLength(start, end)
    ensures forall k :: 0 <= k < |dates| ==> Printable(DayAt(start, k)) && dates[k] == Iso(DayAt(start, k))
    ensures forall i, j :: 0 <= i < j < |dates| ==> StrLt(dates[i], dates[j])
  {
    dates := [];
    var cur := start;
    while Ordinal(cur) <= Ordinal(end)
      invariant Valid(cur) && cur == DayAt(start, |dates|)
      invariant Ordinal(cur) == Ordinal(start) + |dates|
      invariant |dates| <= SpanLength(start, end)
      invariant DaysFrom(start, dates)
      decreases Ordinal(end) + 1 - Ordinal(cur)
    {
      DayListStep(start, end, cur, |dates|);
      DayListExtend(start, dates, cur);
      dates := dates + [Iso(cur)];
      cur := Next(cur);
    }
    DayListDone(start, end, cur, dates);
  }

  lemma DayListStep(start: Date, end: Date, cur: Date, n: nat)
    requires Valid(start) && Printable(end) && Valid(cur)
    requires cur == DayAt(start, n) && Ordinal(cur) == Ordinal(start) + n
    requires Ordinal(cur) <= Ordinal(end)
    ensures Printable(cur) && n + 1 <= SpanLength(start, end)
    ensures Valid(Next(cur)) && Next(cur) == DayAt(start, n + 1) && Ordinal(Next(cur)) == Ordinal(start) + n + 1
  {
    BeforeIsOrdinalOrder(end, cur);
    NextIsNextDay(cur);
  }

  lemma DayListExtend(start: Date, dates: seq<string>, cur: Date)
    requires Valid(start) && Printable(cur) && cur == DayAt(start, |dates|)
    requires DaysFrom(start, dates)
    ensures DaysFrom(start, dates + [Iso(cur)])
  {
    var longer := dates + [Iso(cur)];
    forall k | 0 <= k < |longer| ensures Printable(DayAt(start, k)) && longer[k] == Iso(DayAt(start, k)) {
      if k < |dates| {
        assert longer[k] == dates[k];
      } else {
        assert k == |dates| && longer[k] == Iso(cur);
      }
    }
  }

  /** When the loop stops, every day of the span has been listed, in
      ascending order. */
  lemma DayListDone(start: Date, end: Date, cur: Date, dates: seq<string>)
    requires Valid(start) && Printable(end) && Valid(cur)
    requires Ordinal(cur) == Ordinal(start) + |dates| && Ordinal(cur) > Ordinal(end)
    requires |dates| <= SpanLength(start, end)
    requires DaysFrom(start, dates)
    ensures |dates| == SpanLength(start, end)
    ensures forall k :: 0 <= k < |dates| ==> Printable(DayAt(start, k)) && dates[k] == Iso(DayAt(start, k))
    ensures forall i, j :: 0 <= i < j < |dates| ==> StrLt(dates[i], dates[j])
  {
    DayListAscending(start, dates);
  }

  lemma DayListAscending(start: Date, dates: seq<string>)
    requires Valid(start)
    requires DaysFrom(start, dates)
    ensures forall i, j :: 0 <= i < j < |dates| ==> StrLt(dates[i], dates[j])
  {
    forall i, j | 0 <= i < j < |dates| ensures StrLt(dates[i], dates[j]) {
      DayAtIsNDaysLater(start, i);
      DayAtIsNDaysLater(start, j);
      IsoOrderIsDateOrder(DayAt(start, i), DayAt(start, j));
    }
  }

  /** After the first `i` rows every listed day holds its matching expense sum so far. */
  ghost predicate TrendState(txs: seq<Transaction>, i: nat, dates: seq<string>, trendCategory: string, data: map<string, int>)
    requires i <= |txs|
  {
    && (forall d :: d in data <==> d in dates)
    && (forall d :: d in data ==> data[d] == Total(txs[..i], TrendOn(d, trendCategory)))
  }

  lemma TrendStep(txs: seq<Transaction>, i: nat, dates: seq<string>, trendCategory: string,
                  data: map<string, int>, data': map<string, int>)
    requires i < |txs| && TrendState(txs, i, dates, trendCategory, data)
    requires data' == if Selects(TrendOn(txs[i].date, trendCategory), txs[i]) && txs[i].date in data
                      then data[txs[i].date := data[txs[i].date] + txs[i].amount] else data
    ensures TrendState(txs, i + 1, dates, trendCategory, data')
  {
    forall d | d in data
      ensures Total(txs[..i + 1], TrendOn(d, trendCategory))
           == Total(txs[..i], TrendOn(d, trendCategory)) + (if Selects(TrendOn(d, trendCategory), txs[i]) then txs[i].amount else 0)
    {
      TotalSnoc(txs, i, TrendOn(d, trendCategory));
    }
  }

  /** The two `forEach` loops of `weeklyData`: every listed day starts at
      zero, then each matching expense is added to its day; a row whose date
      is not a listed day is ignored. */
  method ExpensesByDay(txs: seq<Transaction>, dates: seq<string>, trendCategory: string)
    returns (data: map<string, int>)
    ensures forall d :: d in data <==> d in dates
    ensures forall d :: d in data ==> data[d] == Total(txs, TrendOn(d, trendCategory))
  {
    data := map[];
    for k := 0 to |dates|
      invariant forall d :: d in data <==> d in dates[..k]
      invariant forall d :: d in data ==> data[d] == 0
    {
      data := data[dates[k] := 0];
    }
    assert dates[..|dates|] == dates;
    assert TrendState(txs, 0, dates, trendCategory, data);

    for i := 0 to |txs|
      invariant TrendState(txs, i, dates, trendCategory, data)
    {
      var t := txs[i];
      ghost var before := data;
      if t.kind == EXPENSE && (trendCategory == ALL_CATEGORIES || t.category == trendCategory) {
        if t.date in data {
          data := data[t.date := data[t.date] + t.amount];
        }
      }
      TrendStep(txs, i, dates, trendCategory, before, data);
    }
    assert txs[..|txs|] == txs;
  }

  /** `weeklyData`: one point per calendar day from `start` to `end`
      inclusive, ascending, each holding the expense sum of that day in the
      selected category (or in all of them for "All"). */
  method WeeklyData(txs: seq<Transaction>, start: Date, end: Date, trendCategory: string)
    returns (points: seq<TrendPoint>)
    requires Valid(start) && Printable(end)
    ensures |points| == SpanLength(start, end)
    ensures forall i :: 0 <= i < |points| ==> Printable(DayAt(start, i)) && points[i].date == Iso(DayAt(start, i))
    ensures forall i, j :: 0 <= i < j < |points| ==> StrLt(points[i].date, points[j].date)
    ensures forall i :: 0 <= i < |points| ==> points[i].amount == Total(txs, TrendOn(points[i].date, trendCategory))
  {
    var dates := DayList(start, end);
    var data := ExpensesByDay(txs, dates, trendCategory);
    // `Object.values` lists the days in insertion order, which is already
    // ascending, so the final sort by date leaves them where they are.
    points := seq(|dates|, j requires 0 <= j < |dates| => TrendPoint(dates[j], data[dates[j]]));
  }

  /** The trend has no gaps: every calendar day between `start` and `end` is
      the point at its distance from `start`. */
  lemma TrendCoversEveryDay(start: Date, end: Date, d: Date)
    requires Valid(start) && Valid(end) && Valid(d)
    requires Ordinal(start) <= Ordinal(d) <= Ordinal(end)
    ensures Ordinal(d) - Ordinal(start) < SpanLength(start, end)
    ensures DayAt(start, Ordinal(d) - Ordinal(start)) == d
  {
    var n := Ordinal(d) - Ordinal(start);
    DayAtIsNDaysLater(start, n);
    BeforeIsOrdinalOrder(DayAt(start, n), d);
  }

  /** A day on which no expense of the selected category falls is zero. */
  lemma QuietDayIsZero(txs: seq<Transaction>, day: string, trendCategory: string)
    requires forall i :: 0 <= i < |txs| ==> !Selects(TrendOn(day, trendCategory), txs[i])
    ensures Total(txs, TrendOn(day, trendCategory)) == 0
  {
    TotalOfNone(txs, TrendOn(day, trendCategory));
  }
}

=== FILE: backend.dfy ===
/** The HTTP back end: a table of transactions kept in row order, read a
    window at a time, appended to, deleted from by id, and summarised into the
    "yearly highlights" of one year. */
module Backend {
  import opened Ledger

  // ---- paging through the table ----

  /** The rows `OFFSET skip LIMIT limit` returns, as SQLite evaluates it: a
      negative offset counts as zero and a negative limit means no limit. */
  function Window(rows: seq<Transaction>, skip: int, limit: int): (r: seq<Transaction>)
    ensures limit >= 0 ==> |r| <= limit
    ensures var from := if skip < 0 then 0 else skip;
      (forall k :: 0 <= k < |r| ==> from + k < |rows| && r[k] == rows[from + k]) &&
      (limit < 0 || |r| < limit ==> from + |r| >= |rows|)
  {
    var from := if skip < 0 then 0 else skip;
    if from >= |rows| then []
    else if limit < 0 || |rows| - from <= limit then rows[from..]
    else rows[from..from + limit]
  }

  /** Two windows side by side read the same rows as one window of both
      sizes: a client paging through the table sees every row once. */
  lemma WindowsTile(rows: seq<Transaction>, skip: nat, a: nat, b: nat)
    ensures Window(rows, skip, a) + Window(rows, skip + a, b) == Window(rows, skip, a + b)
  {
    var w1, w2, w := Window(rows, skip, a), Window(rows, skip + a, b), Window(rows, skip, a + b);
    assert |w1| + |w2| == |w|;
    forall k | 0 <= k < |w| ensures (w1 + w2)[k] == w[k] {
      if k >= |w1| {
        assert w2[k - |w1|] == rows[skip + a + (k - |w1|)];
      }
    }
  }

  /** The default window returns the whole table while it has at most 100 rows. */
  lemma DefaultWindowIsWholeTable(rows: seq<Transaction>)
    requires |rows| <= 100
    ensures Window(rows, 0, 100) == rows
  {
  }

  // ---- row ids ----

  /** Ids grow along the table: the row order is the order of creation. */
  predicate IdsAscending(rows: seq<Transaction>) {
    forall i, j :: 0 <= i < j < |rows| ==> rows[i].id < rows[j].id
  }

  lemma AscendingIdsAreUnique(rows: seq<Transaction>)
    requires IdsAscending(rows)
    ensures UniqueIds(rows)
  {
  }

  /** The largest id of a non-empty table. */
  function LargestId(rows: seq<Transaction>): (m: int)
    requires rows != []
    ensures forall i :: 0 <= i < |rows| ==> rows[i].id <= m
    ensures exists i :: 0 <= i < |rows| && rows[i].id == m
  {
    if |rows| == 1 then rows[0].id
    else
      var m := LargestId(rows[..|rows| - 1]);
      if rows[|rows| - 1].id > m then rows[|rows| - 1].id else m
  }

  /** The id SQLite gives a new row of an integer primary key: one above the
      largest, or 1 in an empty table. */
  function NextRowId(rows: seq<Transaction>): (id: int)
    ensures forall i :: 0 <= i < |rows| ==> rows[i].id < id
    ensures rows == [] ==> id == 1
    ensures rows != [] ==> exists i :: 0 <= i < |rows| && rows[i].id == id - 1
  {
    if rows == [] then 1 else LargestId(rows) + 1
  }

  /** The index of the first row of an id, if any. */
  function FirstWithId(rows: seq<Transaction>, id: int): (r: Option<nat>)
    ensures r.None? <==> forall i :: 0 <= i < |rows| ==> rows[i].id != id
    ensures r.Some? ==> r.value < |rows| && rows[r.value].id == id
    ensures r.Some? ==> forall i :: 0 <= i < r.value ==> rows[i].id != id
  {
    if rows == [] then None
    else if rows[0].id == id then Some(0)
    else match FirstWithId(rows[1..], id)
      case None => None
      case Some(k) => Some(k + 1)
  }

  /** The answer to a delete request. */
  datatype DeleteOutcome =
    | Deleted   // {"ok": true}
    | NotFound  // HTTP 404 "Transaction not found"

  /** The transactions table. */
  class Store {
    var rows: seq<Transaction>

    ghost predicate Valid()
      reads this
    {
      IdsAscending(rows)
    }

    constructor ()
      ensures Valid() && rows == []
    {
      rows := [];
    }

    /** `GET /transactions/`: one window of the table, in row order. */
    method ReadTransactions(skip: int, limit: int) returns (page: seq<Transaction>)
      ensures page == Window(rows, skip, limit)
    {
      page := Window(rows, skip, limit);
    }

    /** `POST /transactions/`: stores the submitted fields under a new id and
        returns the stored row. */
    method CreateTransaction(c: TransactionCreate) returns (t: Transaction)
      requires Valid()
      modifies this
      ensures Valid()
      ensures t == c.WithId(NextRowId(old(rows)))
      ensures rows == old(rows) + [t]
    {
      t := c.WithId(NextRowId(rows));
      rows := rows + [t];
    }

    /** `DELETE /transactions/{id}`: removes the row of that id, or answers
        404 and changes nothing when there is none. */
    method DeleteTransaction(id: int) returns (outcome: DeleteOutcome)
      requires Valid()
      modifies this
      ensures Valid()
      ensures outcome == NotFound <==> forall i :: 0 <= i < |old(rows)| ==> old(rows)[i].id != id
      ensures outcome == NotFound ==> rows == old(rows)
      ensures outcome == Deleted ==> rows == RemoveId(old(rows), id) && |rows| == |old(rows)| - 1
    {
      match FirstWithId(rows, id)
      case None =>
        outcome := NotFound;
      case Some(i) =>
        AscendingIdsAreUnique(rows);
        RemoveUniqueAt(rows, i);
        DropKeepsAscending(rows, i);
        rows := rows[..i] + rows[i + 1..];
        outcome := Deleted;
    }
  }

  lemma DropKeepsAscending(rows: seq<Transaction>, i: nat)
    requires IdsAscending(rows) && i < |rows|
    ensures IdsAscending(rows[..i] + rows[i + 1..])
  {
    var r := rows[..i] + rows[i + 1..];
    forall a, b | 0 <= a < b < |r| ensures r[a].id < r[b].id {
      var a', b' := if a < i then a else a + 1, if b < i then b else b + 1;
      assert r[a] == rows[a'] && r[b] == rows[b'];
    }
  }

  /** Any run of creates and deletes keeps ids unique; creating never reuses
      the id of a row in the table. */
  lemma CreateIdIsFresh(rows: seq<Transaction>, c: TransactionCreate)
    requires IdsAscending(rows)
    ensures IdsAscending(rows + [c.WithId(NextRowId(rows))])
    ensures forall i :: 0 <= i < |rows| ==> rows[i].id != NextRowId(rows)
  {
    var r := rows + [c.WithId(NextRowId(rows))];
    forall a, b | 0 <= a < b < |r| ensures r[a].id < r[b].id {
      assert r[a] == rows[a];
    }
  }

  // ---- yearly highlights ----

  /** The expense rows of the year: `type == 'expense'` and the date matches
      `<year>-%`. */
  function Contributors(rows: seq<Transaction>, year: string): (r: seq<Transaction>)
    ensures |r| <= |rows|
  {
    if rows == [] then []
    else
      var last := rows[|rows| - 1];
      Contributors(rows[..|rows| - 1], year) + (if Selects(YearExpense(year), last) then [last] else [])
  }

  lemma {:induction false} ContributorsMembers(rows: seq<Transaction>, year: string)
    ensures forall t :: t in Contributors(rows, year) <==> t in rows && Selects(YearExpense(year), t)
  {
    if rows != [] {
      ContributorsMembers(rows[..|rows| - 1], year);
      assert rows == rows[..|rows| - 1] + [rows[|rows| - 1]];
    }
  }

  /** The three groupings the highlights rank: spend per date, rows per date,
      spend per category. */
  datatype Grouping = SpendByDate | RowsByDate | SpendByCategory

  function GroupKey(g: Grouping, t: Transaction): string {
    if g == SpendByCategory then t.category else t.date
  }

  /** The value of a group: `SUM(amount)` or `COUNT(id)` over the year's
      expense rows of that key. */
  function Score(rows: seq<Transaction>, year: string, g: Grouping, key: string): int {
    match g
    case SpendByDate => Total(rows, YearExpenseOn(year, key))
    case RowsByDate => Count(rows, YearExpenseOn(year, key))
    case SpendByCategory => Total(rows, YearExpenseIn(year, key))
  }

  datatype Group = Group(key: string, score: int)

  /** The first row of `ORDER BY <score> DESC` over the groups of the
      candidates' keys; among equal scores, the key met first. */
  function Best(rows: seq<Transaction>, year: string, g: Grouping, cands: seq<Transaction>): (r: Option<Group>)
    ensures r.None? <==> cands == []
    ensures r.Some? ==> r.value.score == Score(rows, year, g, r.value.key)
    ensures r.Some? ==> exists i :: 0 <= i < |cands| && GroupKey(g, cands[i]) == r.value.key
    ensures r.Some? ==> forall i :: 0 <= i < |cands| ==> Score(rows, year, g, GroupKey(g, cands[i])) <= r.value.score
  {
    if cands == [] then None
    else
      var init, last := cands[..|cands| - 1], cands[|cands| - 1];
      var key := GroupKey(g, last);
      var score := Score(rows, year, g, key);
      match Best(rows, year, g, init)
      case None => Some(Group(key, score))
      case Some(b) => if score > b.score then Some(Group(key, score)) else Some(b)
  }

  datatype DayAmount = DayAmount(date: string, amount: int)
  datatype DayCount = DayCount(date: string, count: int)
  datatype CategoryAmount = CategoryAmount(category: string, amount: int)

  datatype YearlyStats = YearlyStats(
    highestSpendingDay: Option<DayAmount>,
    mostFrequentDay: Option<DayCount>,
    highestCategory: Option<CategoryAmount>)

  /** The top group of one grouping over the year's expense rows. */
  function Highest(rows: seq<Transaction>, year: string, g: Grouping): Option<Group> {
    Best(rows, year, g, Contributors(rows, year))
  }

  /** `GET /stats/year/{year}`. */
  function GetYearlyStats(rows: seq<Transaction>, year: string): (s: YearlyStats)
    ensures var none := forall i :: 0 <= i < |rows| ==> !Selects(YearExpense(year), rows[i]);
      (s.highestSpendingDay.None? <==> none) &&
      (s.mostFrequentDay.None? <==> none) &&
      (s.highestCategory.None? <==> none)
  {
    var cands := Contributors(rows, year);
    ContributorsMembers(rows, year);
    assert cands == [] <==> forall i :: 0 <= i < |rows| ==> !Selects(YearExpense(year), rows[i]) by {
      if cands != [] {
        assert cands[0] in cands;
      }
    }
    var d, f, c := Highest(rows, year, SpendByDate), Highest(rows, year, RowsByDate), Highest(rows, year, SpendByCategory);
    YearlyStats(
      if d.None? then None else Some(DayAmount(d.value.key, d.value.score)),
      if f.None? then None else Some(DayCount(f.value.key, f.value.score)),
      if c.None? then None else Some(CategoryAmount(c.value.key, c.value.score)))
  }

  lemma YearRowInItsGroups(year: string, t: Transaction)
    requires Selects(YearExpense(year), t)
    ensures Selects(YearExpenseOn(year, t.date), t) && Selects(YearExpenseIn(year, t.category), t)
  {
  }

  /** The best group's key is the key of one of the year's expense rows, and
      no expense row of the year has a group that scores more. */
  lemma BestOfContributors(rows: seq<Transaction>, year: string, g: Grouping)
    ensures var b := Highest(rows, year, g);
      b.Some? ==>
        (exists i :: 0 <= i < |rows| && Selects(YearExpense(year), rows[i]) && GroupKey(g, rows[i]) == b.value.key) &&
        forall i :: 0 <= i < |rows| && Selects(YearExpense(year), rows[i]) ==>
          Score(rows, year, g, GroupKey(g, rows[i])) <= b.value.score
  {
    var cands := Contributors(rows, year);
    var b := Highest(rows, year, g);
    ContributorsMembers(rows, year);
    if b.Some? {
      var j :| 0 <= j < |cands| && GroupKey(g, cands[j]) == b.value.key;
      assert cands[j] in cands;
      var i :| 0 <= i < |rows| && rows[i] == cands[j];
      forall i | 0 <= i < |rows| && Selects(YearExpense(year), rows[i])
        ensures Score(rows, year, g, GroupKey(g, rows[i])) <= b.value.score
      {
        assert rows[i] in cands;
        var k :| 0 <= k < |cands| && cands[k] == rows[i];
      }
    }
  }

  /** The highest spending day is a date of the year with expenses, its amount
      is that date's expense total, and no date of the year totals more. */
  lemma HighestSpendingDay(rows: seq<Transaction>, year: string)
    ensures var h := GetYearlyStats(rows, year).highestSpendingDay;
      h.Some? ==>
        InYear(h.value.date, year) &&
        h.value.amount == Total(rows, YearExpenseOn(year, h.value.date)) &&
        Count(rows, YearExpenseOn(year, h.value.date)) > 0 &&
        forall i :: 0 <= i < |rows| && Selects(YearExpense(year), rows[i]) ==>
          Total(rows, YearExpenseOn(year, rows[i].date)) <= h.value.amount
  {
    BestOfContributors(rows, year, SpendByDate);
    var h, d := GetYearlyStats(rows, year).highestSpendingDay, Highest(rows, year, SpendByDate);
    assert h == if d.None? then None else Some(DayAmount(d.value.key, d.value.score));
    if h.Some? {
      var i :| 0 <= i < |rows| && Selects(YearExpense(year), rows[i]) && rows[i].date == h.value.date;
      YearRowInItsGroups(year, rows[i]);
      CountPositive(rows, YearExpenseOn(year, h.value.date), i);
    }
  }

  /** The most frequent day is a date of the year with expenses, its count is
      that date's number of expense rows, and no date of the year has more. */
  lemma MostFrequentDay(rows: seq<Transaction>, year: string)
    ensures var f := GetYearlyStats(rows, year).mostFrequentDay;
      f.Some? ==>
        InYear(f.value.date, year) &&
        f.value.count == Count(rows, YearExpenseOn(year, f.value.date)) &&
        f.value.count > 0 &&
        forall i :: 0 <= i < |rows| && Selects(YearExpense(year), rows[i]) ==>
          Count(rows, YearExpenseOn(year, rows[i].date)) <= f.value.count
  {
    BestOfContributors(rows, year, RowsByDate);
    var f, d := GetYearlyStats(rows, year).mostFrequentDay, Highest(rows, year, RowsByDate);
    assert f == if d.None? then None else Some(DayCount(d.value.key, d.value.score));
    if f.Some? {
      var i :| 0 <= i < |rows| && Selects(YearExpense(year), rows[i]) && rows[i].date == f.value.date;
      YearRowInItsGroups(year, rows[i]);
      CountPositive(rows, YearExpenseOn(year, f.value.date), i);
    }
  }

  /** The highest category has expenses in the year, its amount is that
      category's expense total for the year, and no category totals more. */
  lemma HighestCategory(rows: seq<Transaction>, year: string)
    ensures var c := GetYearlyStats(rows, year).highestCategory;
      c.Some? ==>
        c.value.amount == Total(rows, YearExpenseIn(year, c.value.category)) &&
        Count(rows, YearExpenseIn(year, c.value.category)) > 0 &&
        forall i :: 0 <= i < |rows| && Selects(YearExpense(year), rows[i]) ==>
          Total(rows, YearExpenseIn(year, rows[i].category)) <= c.value.amount
  {
    BestOfContributors(rows, year, SpendByCategory);
    var c, d := GetYearlyStats(rows, year).highestCategory, Highest(rows, year, SpendByCategory);
    assert c == if d.None? then None else Some(CategoryAmount(d.value.key, d.value.score));
    if c.Some? {
      var i :| 0 <= i < |rows| && Selects(YearExpense(year), rows[i]) && rows[i].category == c.value.category;
      YearRowInItsGroups(year, rows[i]);
      CountPositive(rows, YearExpenseIn(year, c.value.category), i);
    }
  }

  /** The best group depends on the table only through the scores. */
  lemma {:induction false} BestCongruent(rows1: seq<Transaction>, rows2: seq<Transaction>, year: string, g: Grouping, cands: seq<Transaction>)
    requires forall i :: 0 <= i < |cands| ==>
      Score(rows1, year, g, GroupKey(g, cands[i])) == Score(rows2, year, g, GroupKey(g, cands[i]))
    ensures Best(rows1, year, g, cands) == Best(rows2, year, g, cands)
  {
    if cands != [] {
      BestCongruent(rows1, rows2, year, g, cands[..|cands| - 1]);
    }
  }

  /** A row that is not an expense of the year (an income, or a row of
      another year) changes none of the year's highlights. */
  lemma OtherRowsDoNotMatter(rows: seq<Transaction>, t: Transaction, year: string)
    requires !Selects(YearExpense(year), t)
    ensures GetYearlyStats(rows + [t], year) == GetYearlyStats(rows, year)
  {
    var more := rows + [t];
    assert more[..|more| - 1] == rows;
    var cands := Contributors(rows, year);
    assert Contributors(more, year) == cands;
    forall g: Grouping, key: string ensures Score(more, year, g, key) == Score(rows, year, g, key) {
      TotalSnoc(more, |rows|, YearExpenseOn(year, key));
      TotalSnoc(more, |rows|, YearExpenseIn(year, key));
      assert more[..|rows| + 1] == more;
    }
    BestCongruent(more, rows, year, SpendByDate, cands);
    BestCongruent(more, rows, year, RowsByDate, cands);
    BestCongruent(more, rows, year, SpendByCategory, cands);
  }
}

=== FILE: dates.dfy ===
/** Calendar dates of the proleptic Gregorian calendar, their ISO 8601
    extended text `YYYY-MM-DD` (ISO 8601:2004, section 4.1.2.2), the
    "next calendar day" step, and the proof that comparing the texts as
    strings compares the dates. */
module Dates {
  import opened Text

  datatype Date = Date(year: int, month: int, day: int)

  predicate IsLeapYear(y: int) {
    y % 4 == 0 && (y % 100 != 0 || y % 400 == 0)
  }

  function DaysInMonth(y: int, m: int): (n: int)
    ensures 28 <= n <= 31
  {
    if m == 2 then (if IsLeapYear(y) then 29 else 28)
    else if m == 4 || m == 6 || m == 9 || m == 11 then 30
    else 31
  }

  function YearLength(y: int): (n: int)
    ensures n == 365 || n == 366
  {
    if IsLeapYear(y) then 366 else 365
  }

  predicate Valid(d: Date) {
    d.year >= 0 && 1 <= d.month <= 12 && 1 <= d.day <= DaysInMonth(d.year, d.month)
  }

  /** A valid date that has a four-digit ISO year. */
  predicate Printable(d: Date) {
    Valid(d) && d.year <= 9999
  }

  /** The calendar day after `d`: JavaScript's `setDate(getDate() + 1)`. */
  function Next(d: Date): Date {
    if d.day < DaysInMonth(d.year, d.month) then Date(d.year, d.month, d.day + 1)
    else if d.month < 12 then Date(d.year, d.month + 1, 1)
    else Date(d.year + 1, 1, 1)
  }

  /** The date `n` days after `d`. */
  function DayAt(d: Date, n: nat): Date {
    if n == 0 then d else Next(DayAt(d, n - 1))
  }

  /** `a` is an earlier calendar date than `b`. */
  predicate Before(a: Date, b: Date) {
    a.year < b.year ||
    (a.year == b.year && (a.month < b.month || (a.month == b.month && a.day < b.day)))
  }

  // ---- day numbers ----

  function DaysBeforeYear(y: nat): nat {
    if y == 0 then 0 else DaysBeforeYear(y - 1) + YearLength(y - 1)
  }

  function DaysBeforeMonth(y: int, m: int): nat
    requires 1 <= m <= 12
  {
    if m == 1 then 0 else DaysBeforeMonth(y, m - 1) + DaysInMonth(y, m - 1)
  }

  /** The number of days from 0000-01-01 to `d`: the day count a JavaScript
      `Date` compares by (up to a constant offset). */
  function Ordinal(d: Date): nat
    requires Valid(d)
  {
    DaysBeforeYear(d.year) + DaysBeforeMonth(d.year, d.month) + d.day - 1
  }

  lemma {:induction false} MonthFitsInYear(y: int, m: int)
    requires 1 <= m <= 12
    ensures DaysBeforeMonth(y, m) + DaysInMonth(y, m) <= YearLength(y)
    ensures m == 12 ==> DaysBeforeMonth(y, m) + DaysInMonth(y, m) == YearLength(y)
    decreases 12 - m
  {
    if m < 12 {
      MonthFitsInYear(y, m + 1);
    } else {
      var leap := if IsLeapYear(y) then 1 else 0;
      assert DaysBeforeMonth(y, 2) == 31;
      assert DaysBeforeMonth(y, 3) == 59 + leap;
      assert DaysBeforeMonth(y, 4) == 90 + leap;
      assert DaysBeforeMonth(y, 5) == 120 + leap;
      assert DaysBeforeMonth(y, 6) == 151 + leap;
      assert DaysBeforeMonth(y, 7) == 181 + leap;
      assert DaysBeforeMonth(y, 8) == 212 + leap;
      assert DaysBeforeMonth(y, 9) == 243 + leap;
      assert DaysBeforeMonth(y, 10) == 273 + leap;
      assert DaysBeforeMonth(y, 11) == 304 + leap;
      assert DaysBeforeMonth(y, 12) == 334 + leap;
    }
  }

  lemma {:induction false} DaysBeforeMonthMonotone(y: int, m1: int, m2: int)
    requires 1 <= m1 < m2 <= 12
    ensures DaysBeforeMonth(y, m1) + DaysInMonth(y, m1) <= DaysBeforeMonth(y, m2)
    decreases m2 - m1
  {
    if m1 + 1 < m2 {
      DaysBeforeMonthMonotone(y, m1, m2 - 1);
    }
  }

  lemma {:induction false} DaysBeforeYearMonotone(y1: nat, y2: nat)
    requires y1 < y2
    ensures DaysBeforeYear(y1) + YearLength(y1) <= DaysBeforeYear(y2)
    decreases y2 - y1
  {
    if y1 + 1 < y2 {
      DaysBeforeYearMonotone(y1, y2 - 1);
    }
  }

  /** A date's day number lies within its year. */
  lemma OrdinalWithinYear(d: Date)
    requires Valid(d)
    ensures DaysBeforeYear(d.year) <= Ordinal(d) < DaysBeforeYear(d.year) + YearLength(d.year)
  {
    MonthFitsInYear(d.year, d.month);
  }

  /** The next day is a valid date with the next day number. */
  lemma NextIsNextDay(d: Date)
    requires Valid(d)
    ensures Valid(Next(d)) && Ordinal(Next(d)) == Ordinal(d) + 1
  {
    if d.day == DaysInMonth(d.year, d.month) && d.month == 12 {
      MonthFitsInYear(d.year, 12);
    }
  }

  lemma {:induction false} DayAtIsNDaysLater(d: Date, n: nat)
    requires Valid(d)
    ensures Valid(DayAt(d, n)) && Ordinal(DayAt(d, n)) == Ordinal(d) + n
  {
    if n > 0 {
      DayAtIsNDaysLater(d, n - 1);
      NextIsNextDay(DayAt(d, n - 1));
    }
  }

  /** Calendar order is day-number order. */
  lemma BeforeIsOrdinalOrder(a: Date, b: Date)
    requires Valid(a) && Valid(b)
    ensures Before(a, b) <==> Ordinal(a) < Ordinal(b)
    ensures a == b <==> Ordinal(a) == Ordinal(b)
  {
    OrdinalWithinYear(a);
    OrdinalWithinYear(b);
    if a.year < b.year {
      DaysBeforeYearMonotone(a.year, b.year);
    } else if b.year < a.year {
      DaysBeforeYearMonotone(b.year, a.year);
    } else if a.month < b.month {
      DaysBeforeMonthMonotone(a.year, a.month, b.month);
    } else if b.month < a.month {
      DaysBeforeMonthMonotone(a.year, b.month, a.month);
    }
  }

  // ---- ISO 8601 text ----

  /** `YYYY-MM-DD`, as `toISOString().split('T')[0]` prints a date of years
      0 to 9999. */
  function Iso(d: Date): (s: string)
    requires Printable(d)
    ensures |s| == 10 && s[4] == '-' && s[7] == '-'
  {
    Pad(d.year, 4) + ("-" + (Pad(d.month, 2) + ("-" + Pad(d.day, 2))))
  }

  lemma IsoCompare(a: Date, b: Date)
    requires Printable(a) && Printable(b)
    ensures StrLt(Iso(a), Iso(b)) <==> Before(a, b)
    ensures Iso(a) == Iso(b) <==> a == b
  {
    var mdA, mdB := Pad(a.month, 2) + ("-" + Pad(a.day, 2)), Pad(b.month, 2) + ("-" + Pad(b.day, 2));
    var dA, dB := "-" + Pad(a.day, 2), "-" + Pad(b.day, 2);
    StrLtConcat(Pad(a.year, 4), "-" + mdA, Pad(b.year, 4), "-" + mdB);
    StrLtConcat("-", mdA, "-", mdB);
    StrLtConcat(Pad(a.month, 2), dA, Pad(b.month, 2), dB);
    StrLtConcat("-", Pad(a.day, 2), "-", Pad(b.day, 2));
    PadOrder(a.year, b.year, 4);
    PadOrder(a.month, b.month, 2);
    PadOrder(a.day, b.day, 2);
    if Pad(a.year, 4) == Pad(b.year, 4) {
      PadInjective(a.year, b.year, 4);
    }
    if Pad(a.month, 2) == Pad(b.month, 2) {
      PadInjective(a.month, b.month, 2);
    }
    if Pad(a.day, 2) == Pad(b.day, 2) {
      PadInjective(a.day, b.day, 2);
    }
    if Iso(a) == Iso(b) {
      ConcatCancel(Pad(a.year, 4), "-" + mdA, Pad(b.year, 4), "-" + mdB);
      ConcatCancel("-", mdA, "-", mdB);
      ConcatCancel(Pad(a.month, 2), dA, Pad(b.month, 2), dB);
      ConcatCancel("-", Pad(a.day, 2), "-", Pad(b.day, 2));
    }
  }

  /** String order on ISO texts is calendar order: comparing the texts with
      `<=`, as the date-range filter does, compares the day numbers. */
  lemma IsoOrderIsDateOrder(a: Date, b: Date)
    requires Printable(a) && Printable(b)
    ensures StrLt(Iso(a), Iso(b)) <==> Ordinal(a) < Ordinal(b)
    ensures StrLe(Iso(a), Iso(b)) <==> Ordinal(a) <= Ordinal(b)
    ensures Iso(a) == Iso(b) <==> Ordinal(a) == Ordinal(b)
  {
    IsoCompare(a, b);
    IsoCompare(b, a);
    BeforeIsOrdinalOrder(a, b);
    BeforeIsOrdinalOrder(b, a);
  }

  /** The number of calendar days from `start` to `end` inclusive. */
  function SpanLength(start: Date, end: Date): (n: nat)
    requires Valid(start) && Valid(end)
    ensures n == 0 <==> Before(end, start)
  {
    BeforeIsOrdinalOrder(end, start);
    if Ordinal(end) < Ordinal(start) then 0 else Ordinal(end) - Ordinal(start) + 1
  }
}

=== FILE: entry.dfy ===
/** The add-transaction form and the delete action of the dashboard: the
    checks a submission must pass, the custom-category list, and what happens
    to the local list when the store accepts, refuses or cannot be reached. */
module Entry {
  import opened Text
  import opened Ledger

  /** The category choices the form starts with. */
  const INITIAL_CATEGORIES: seq<string> :=
    ["Food", "Transport", "Entertainment", "Salary", "Bills", "Housing", "Education", "Shopping", "Health", "Other"]

  /** What the typed amount evaluates to, in cents. The evaluation of the text
      itself (an arithmetic expression or a number) happens outside the model. */
  datatype Parsed = NotANumber | Number(cents: int)

  /** The two messages a submission can be refused with. */
  datatype SubmitError = InvalidAmount | MissingCategory

  datatype Result<T> = Ok(value: T) | Err(error: SubmitError)

  // ---- String.prototype.trim ----

  /** The characters `trim` removes: white space and line terminators. */
  predicate IsWhitespace(c: char) {
    c == '\t' || c == '\n' || c == '\U{B}' || c == '\U{C}' || c == '\r' || c == ' ' ||
    c == '\U{A0}' || c == '\U{1680}' || ('\U{2000}' <= c <= '\U{200A}') ||
    c == '\U{2028}' || c == '\U{2029}' || c == '\U{202F}' || c == '\U{205F}' ||
    c == '\U{3000}' || c == '\U{FEFF}'
  }

  /** `s` has a character `trim` keeps. */
  predicate HasVisibleChar(s: string) {
    exists i :: 0 <= i < |s| && !IsWhitespace(s[i])
  }

  /** `s` without its leading white space. */
  function TrimStart(s: string): (r: string)
    ensures |r| <= |s| && r == s[|s| - |r|..]
    ensures r == [] || !IsWhitespace(r[0])
    ensures forall i :: 0 <= i < |s| - |r| ==> IsWhitespace(s[i])
    decreases |s|
  {
    if s != [] && IsWhitespace(s[0]) then
      var r := TrimStart(s[1..]);
      assert forall i :: 1 <= i < |s| ==> s[i] == s[1..][i - 1];
      r
    else s
  }

  /** `s` without its trailing white space. */
  function TrimEnd(s: string): (r: string)
    ensures |r| <= |s| && r == s[..|r|]
    ensures r == [] || !IsWhitespace(r[|r| - 1])
    ensures forall i :: |r| <= i < |s| ==> IsWhitespace(s[i])
    decreases |s|
  {
    if s != [] && IsWhitespace(s[|s| - 1]) then
      var r := TrimEnd(s[..|s| - 1]);
      assert r == s[..|r|];
      r
    else s
  }

  /** `s.trim()`. */
  function Trim(s: string): string {
    TrimEnd(TrimStart(s))
  }

  /** `s.trim()` is empty exactly when `s` holds only white space. */
  lemma TrimEmptyIff(s: string)
    ensures Trim(s) == [] <==> !HasVisibleChar(s)
  {
    var a := TrimStart(s);
    if a != [] {
      assert !IsWhitespace(a[0]) && a[0] == s[|s| - |a|];
      assert HasVisibleChar(s);
    } else {
      assert forall i :: 0 <= i < |s| ==> IsWhitespace(s[i]);
    }
  }

  // ---- validation ----

  /** The checks of a submission, in order: the amount must be a number above
      zero, then the category must have a character that is not white space. */
  function Validate(amount: Parsed, category: string): (r: Result<int>)
    ensures r == Err(InvalidAmount) <==> !(amount.Number? && amount.cents > 0)
    ensures r == Err(MissingCategory) <==> amount.Number? && amount.cents > 0 && !HasVisibleChar(category)
    ensures r.Ok? <==> amount.Number? && amount.cents > 0 && HasVisibleChar(category)
    ensures r.Ok? ==> r.value == amount.cents && r.value > 0
  {
    TrimEmptyIff(category);
    if amount.NotANumber? || amount.cents <= 0 then Err(InvalidAmount)
    else if Trim(category) == [] then Err(MissingCategory)
    else Ok(amount.cents)
  }

  /** The category list after a valid submission: a custom category not yet
      offered is appended; otherwise the list is unchanged. */
  function WithCategory(categories: seq<string>, category: string, isCustom: bool): (r: seq<string>)
    ensures |categories| <= |r| && r[..|categories|] == categories
    ensures forall c :: c in r <==> c in categories || (isCustom && c == category)
    ensures Distinct(categories) ==> Distinct(r)
  {
    if isCustom && category !in categories then categories + [category] else categories
  }

  // ---- the local fallback when the store cannot be reached ----

  /** The largest id of the list, or 0 when there is none above 0:
      `Math.max(...ids, 0)`. */
  function MaxId(txs: seq<Transaction>): (m: int)
    ensures m >= 0
    ensures forall i :: 0 <= i < |txs| ==> txs[i].id <= m
    ensures m == 0 || exists i :: 0 <= i < |txs| && txs[i].id == m
  {
    if txs == [] then 0
    else
      var m := MaxId(txs[..|txs| - 1]);
      if txs[|txs| - 1].id > m then txs[|txs| - 1].id else m
  }

  /** The id a transaction added locally gets: one above every id in the list. */
  function FallbackId(txs: seq<Transaction>): (id: int)
    ensures id >= 1
    ensures forall i :: 0 <= i < |txs| ==> txs[i].id < id
  {
    MaxId(txs) + 1
  }

  /** Appending a locally numbered transaction keeps ids unique. */
  lemma FallbackAddKeepsUnique(txs: seq<Transaction>, c: TransactionCreate)
    requires UniqueIds(txs)
    ensures UniqueIds(txs + [c.WithId(FallbackId(txs))])
  {
    var r := txs + [c.WithId(FallbackId(txs))];
    forall i, j | 0 <= i < j < |r| ensures r[i].id != r[j].id {
      if j < |txs| {
        assert r[i] == txs[i] && r[j] == txs[j];
      } else {
        assert r[i] == txs[i];
      }
    }
  }

  /** What the store answered a request with. */
  datatype Reply =
    | Accepted(reloaded: seq<Transaction>) // success; the list was fetched again (the mock list when that fetch fails)
    | Refused                              // an HTTP error status
    | Unreachable                          // the request itself failed

  /** The dashboard's transaction list and category choices. */
  class Dashboard {
    var transactions: seq<Transaction>
    var categories: seq<string>

    ghost predicate Valid()
      reads this
    {
      UniqueIds(transactions) && Distinct(categories)
    }

    constructor ()
      ensures Valid()
      ensures transactions == [] && categories == INITIAL_CATEGORIES
    {
      transactions := [];
      categories := INITIAL_CATEGORIES;
    }

    /** The list fetched from the store replaces the local one. */
    method Load(rows: seq<Transaction>)
      requires Valid() && UniqueIds(rows)
      modifies this
      ensures Valid()
      ensures transactions == rows && categories == old(categories)
    {
      transactions := rows;
    }

    /** Submits the form. A refused submission changes nothing. An accepted
        one first remembers a new custom category, then sends the transaction:
        on success the list is the store's, on an error status it is kept, and
        when the store is unreachable the transaction is appended locally with
        an id above every id in the list. */
    method Submit(amount: Parsed, category: string, isCustom: bool, kind: string, date: string, note: string, reply: Reply)
      returns (r: Result<TransactionCreate>)
      requires Valid()
      requires reply.Accepted? ==> UniqueIds(reply.reloaded)
      modifies this
      ensures Valid()
      ensures Validate(amount, category).Err? ==> r == Err(Validate(amount, category).error)
      ensures r.Err? ==> Validate(amount, category) == Err(r.error)
      ensures r.Err? ==> transactions == old(transactions) && categories == old(categories)
      ensures Validate(amount, category).Ok? ==>
        r == Ok(TransactionCreate(date, amount.cents, kind, category, Some(note)))
      ensures r.Ok? ==> categories == WithCategory(old(categories), category, isCustom)
      ensures r.Ok? && reply.Accepted? ==> transactions == reply.reloaded
      ensures r.Ok? && reply.Refused? ==> transactions == old(transactions)
      ensures r.Ok? && reply.Unreachable? ==>
        transactions == old(transactions) + [r.value.WithId(FallbackId(old(transactions)))]
    {
      var checked := Validate(amount, category);
      if checked.Err? {
        return Err(checked.error);
      }
      if isCustom && category !in categories {
        categories := categories + [category];
      }
      var sent := TransactionCreate(date, checked.value, kind, category, Some(note));
      r := Ok(sent);
      match reply {
        case Accepted(rows) =>
          transactions := rows;
        case Refused =>
        case Unreachable =>
          FallbackAddKeepsUnique(transactions, sent);
          transactions := transactions + [sent.WithId(FallbackId(transactions))];
      }
    }

    /** Deletes a transaction: on success the list is the store's, on an error
        status it is kept, and when the store is unreachable every row of that
        id is dropped locally. */
    method Delete(id: int, reply: Reply)
      requires Valid()
      requires reply.Accepted? ==> UniqueIds(reply.reloaded)
      modifies this
      ensures Valid()
      ensures categories == old(categories)
      ensures reply.Accepted? ==> transactions == reply.reloaded
      ensures reply.Refused? ==> transactions == old(transactions)
      ensures reply.Unreachable? ==> transactions == RemoveId(old(transactions), id)
    {
      match reply {
        case Accepted(rows) =>
          transactions := rows;
        case Refused =>
        case Unreachable =>
          RemoveIdKeepsUnique(transactions, id);
          transactions := RemoveId(transactions, id);
      }
    }
  }

  /** After a local delete no row has the id, and every other row is kept. */
  lemma LocalDeleteRemovesId(txs: seq<Transaction>, id: int)
    ensures forall t :: t in RemoveId(txs, id) ==> t.id != id
    ensures forall t :: t in txs && t.id != id ==> t in RemoveId(txs, id)
  {
    RemoveIdMembers(txs, id);
  }
}

=== FILE: export.dfy ===
/** The CSV export: one header line, then one comma-separated line per
    transaction, without quoting, behind a `data:` URI prefix. */
module Export {
  import opened Text
  import opened Ledger

  const CSV_PREFIX: string := "data:text/csv;charset=utf-8,"
  const CSV_HEADER: string := "ID,Date,Type,Category,Amount,Note"

  // ---- amounts as JavaScript prints them ----

  /** The cents of an amount below one unit, as the digits after the point:
      none for 0, one when the last digit is 0, two otherwise. */
  function FractionDigits(f: nat): (s: string)
    requires f < 100
    ensures |s| <= 2 && forall i :: 0 <= i < |s| ==> IsDigit(s[i])
    ensures (s == []) == (f == 0)
  {
    if f == 0 then ""
    else if f % 10 == 0 then [Digit(f / 10)]
    else [Digit(f / 10), Digit(f % 10)]
  }

  /** A non-negative number of cents printed in units: `String(u / 100)`. */
  function Decimal(u: nat): (s: string)
    ensures |s| >= 1 && IsDigit(s[0])
    ensures forall i :: 0 <= i < |s| ==> IsDigit(s[i]) || s[i] == '.'
  {
    var whole, f := NatToString(u / 100), u % 100;
    if f == 0 then whole else whole + "." + FractionDigits(f)
  }

  /** An amount of cents printed as JavaScript prints the amount in units. */
  function AmountText(c: int): (s: string)
    ensures forall i :: 0 <= i < |s| ==> IsDigit(s[i]) || s[i] == '.' || s[i] == '-'
  {
    if c < 0 then "-" + Decimal(-c) else Decimal(c)
  }

  function DigitValue(c: char): int {
    c as int - '0' as int
  }

  /** The cents that the digits after the point stand for. */
  function FractionValue(ds: string): int {
    if |ds| == 0 then 0
    else if |ds| == 1 then 10 * DigitValue(ds[0])
    else 10 * DigitValue(ds[0]) + DigitValue(ds[1])
  }

  predicate AllDigits(s: string) {
    forall i :: 0 <= i < |s| ==> IsDigit(s[i])
  }

  /** The cents a reader of the file takes an Amount field for: an optional
      minus sign, the whole units, and up to two digits after a point. */
  function ReadAmount(s: string): int {
    var neg := |s| > 0 && s[0] == '-';
    var parts := Split(if neg then s[1..] else s, '.');
    var whole := if AllDigits(parts[0]) then NumeralValue(parts[0]) else 0;
    var frac := if |parts| > 1 then FractionValue(parts[1]) else 0;
    if neg then -(100 * whole + frac) else 100 * whole + frac
  }

  lemma FractionRoundTrip(f: nat)
    requires f < 100
    ensures FractionValue(FractionDigits(f)) == f
  {
  }

  lemma DecimalRoundTrip(u: nat)
    ensures ReadAmount(Decimal(u)) == u
  {
    var whole, f := NatToString(u / 100), u % 100;
    assert '.' !in whole;
    NatToStringValue(u / 100);
    if f == 0 {
      SplitNoSeparator(whole, '.');
    } else {
      var ds := FractionDigits(f);
      assert '.' !in ds;
      SplitAtSeparator(whole, ds, '.');
      SplitNoSeparator(ds, '.');
      assert Split(Decimal(u), '.') == [whole, ds];
      FractionRoundTrip(f);
    }
  }

  /** Reading the printed amount back gives the amount: no two amounts print
      the same. */
  lemma AmountTextRoundTrip(c: int)
    ensures ReadAmount(AmountText(c)) == c
  {
    if c < 0 {
      DecimalRoundTrip(-c);
      assert AmountText(c)[1..] == Decimal(-c);
    } else {
      DecimalRoundTrip(c);
    }
  }

  // ---- lines ----

  /** `t.note || ''`: a missing note prints as nothing. */
  function NoteText(note: Option<string>): string {
    match note
    case None => ""
    case Some(s) => s
  }

  /** The six fields of a transaction's line, in header order. */
  function Fields(t: Transaction): (f: seq<string>)
    ensures |f| == 6
  {
    [IntToString(t.id), t.date, t.kind, t.category, AmountText(t.amount), NoteText(t.note)]
  }

  function CsvLine(t: Transaction): string {
    Join(Fields(t), ',')
  }

  function CsvLines(txs: seq<Transaction>): (r: seq<string>)
    ensures |r| == |txs| && forall i :: 0 <= i < |txs| ==> r[i] == CsvLine(txs[i])
  {
    if txs == [] then [] else [CsvLine(txs[0])] + CsvLines(txs[1..])
  }

  /** The file: the header line and the transaction lines, joined by newlines
      (so there is no newline after the last line). */
  function CsvText(txs: seq<Transaction>): string {
    CSV_HEADER + "\n" + Join(CsvLines(txs), '\n')
  }

  /** What the download link points at, before URI encoding. */
  function CsvDataUri(txs: seq<Transaction>): string {
    CSV_PREFIX + CsvText(txs)
  }

  /** The free-text fields of a transaction hold no `sep`. */
  predicate PlainFields(t: Transaction, sep: char) {
    sep !in t.date && sep !in t.kind && sep !in t.category && sep !in NoteText(t.note)
  }

  /** The id and amount fields never hold a comma or a newline. */
  lemma NumericFieldsArePlain(t: Transaction)
    ensures ',' !in IntToString(t.id) && '\n' !in IntToString(t.id)
    ensures ',' !in AmountText(t.amount) && '\n' !in AmountText(t.amount)
  {
    var a, b := IntToString(t.id), AmountText(t.amount);
    assert forall i :: 0 <= i < |a| ==> a[i] != ',' && a[i] != '\n';
    assert forall i :: 0 <= i < |b| ==> b[i] != ',' && b[i] != '\n';
  }

  /** A line splits back into its six fields when no text field holds a
      comma; the id and the amount read back as the values written. */
  lemma CsvLineRoundTrip(t: Transaction)
    requires PlainFields(t, ',')
    ensures Split(CsvLine(t), ',') == Fields(t)
    ensures t.id >= 0 ==> NumeralValue(Fields(t)[0]) == t.id
    ensures ReadAmount(Fields(t)[4]) == t.amount
  {
    NumericFieldsArePlain(t);
    var f := Fields(t);
    assert forall i :: 0 <= i < |f| ==> ',' !in f[i];
    SplitJoin(f, ',');
    if t.id >= 0 {
      NatToStringValue(t.id);
    }
    AmountTextRoundTrip(t.amount);
  }

  lemma {:induction false} CsvLinesPlain(txs: seq<Transaction>)
    requires forall i :: 0 <= i < |txs| ==> PlainFields(txs[i], '\n')
    ensures forall i :: 0 <= i < |CsvLines(txs)| ==> '\n' !in CsvLines(txs)[i]
  {
    var lines := CsvLines(txs);
    forall i | 0 <= i < |lines| ensures '\n' !in lines[i] {
      var t := txs[i];
      NumericFieldsArePlain(t);
      JoinAvoids(Fields(t), ',', '\n');
    }
  }

  /** Joining pieces that avoid a character, with a separator other than it,
      avoids it too. */
  lemma {:induction false} JoinAvoids(lines: seq<string>, sep: char, c: char)
    requires c != sep
    requires forall i :: 0 <= i < |lines| ==> c !in lines[i]
    ensures c !in Join(lines, sep)
  {
    if |lines| >= 2 {
      JoinAvoids(lines[1..], sep, c);
    }
  }

  lemma HeaderIsOneLine()
    ensures '\n' !in CSV_HEADER
  {
    assert forall i :: 0 <= i < |CSV_HEADER| ==> CSV_HEADER[i] != '\n';
  }

  /** A head line followed by a newline and joined lines splits back into
      the head and the lines. */
  lemma SplitHeadAndLines(head: string, lines: seq<string>)
    requires '\n' !in head
    requires forall i :: 0 <= i < |lines| ==> '\n' !in lines[i]
    ensures Split(head + "\n" + Join(lines, '\n'), '\n') == [head] + (if lines == [] then [""] else lines)
  {
    SplitAtSeparator(head, Join(lines, '\n'), '\n');
    if lines != [] {
      SplitJoin(lines, '\n');
    }
  }

  /** The file splits into the header and one line per transaction, in list
      order, when no text field holds a newline. An empty list leaves one
      empty line after the header. */
  lemma CsvTextRecords(txs: seq<Transaction>)
    requires forall i :: 0 <= i < |txs| ==> PlainFields(txs[i], '\n')
    ensures txs == [] ==> Split(CsvText(txs), '\n') == [CSV_HEADER, ""]
    ensures txs != [] ==> Split(CsvText(txs), '\n') == [CSV_HEADER] + CsvLines(txs)
  {
    var lines := CsvLines(txs);
    assert lines == [] <==> txs == [];
    HeaderIsOneLine();
    CsvLinesPlain(txs);
    SplitHeadAndLines(CSV_HEADER, lines);
  }

  /** Fields are not quoted: a note holding one comma makes its line split
      into seven fields, so the note spills into a column the header does
      not name. */
  lemma CommaInNoteAddsField(t: Transaction, a: string, b: string)
    requires PlainFields(t.(note := None), ',')
    requires ',' !in a && ',' !in b && t.note == Some(a + "," + b)
    ensures |Split(CsvLine(t), ',')| == 7
  {
    var f := Fields(t);
    var g := f[..5] + [a, b];
    assert CsvLine(t) == Join(g, ',') by {
      assert f[5] == a + "," + b;
      assert Join(f[5..], ',') == a + "," + b;
      assert Join(g[5..], ',') == a + [','] + b;
      assert Join(f[4..], ',') == Join(g[4..], ',');
      assert Join(f[3..], ',') == Join(g[3..], ',');
      assert Join(f[2..], ',') == Join(g[2..], ',');
      assert Join(f[1..], ',') == Join(g[1..], ',');
    }
    NumericFieldsArePlain(t);
    assert forall i :: 0 <= i < |g| ==> ',' !in g[i];
    SplitJoin(g, ',');
  }
}

=== FILE: ledger.dfy ===
/** The transaction record shared by the front end and the store, and the
    "sum of the amounts of the rows that ..." totals every derived view is
    specified by. */
module Ledger {

  datatype Option<T> = None | Some(value: T)

  /** The two transaction kinds the application writes. The store keeps the
      kind as free text, so other strings can occur in rows. */
  const INCOME: string := "income"
  const EXPENSE: string := "expense"

  /** One transaction. `date` is the ISO calendar date text `YYYY-MM-DD`;
      `amount` is in cents. */
  datatype Transaction = Transaction(
    id: int,
    date: string,
    amount: int,
    kind: string,
    category: string,
    note: Option<string>)

  /** A transaction as submitted, before the store gives it an id. */
  datatype TransactionCreate = TransactionCreate(
    date: string,
    amount: int,
    kind: string,
    category: string,
    note: Option<string>)
  {
    function WithId(id: int): (t: Transaction)
      ensures t.id == id && t.date == date && t.amount == amount
      ensures t.kind == kind && t.category == category && t.note == note
    {
      Transaction(id, date, amount, kind, category, note)
    }
  }

  /** True when `date` starts with `year` followed by a hyphen, that is,
      when it matches the SQL pattern `<year>-%`. */
  predicate InYear(date: string, year: string) {
    |year| + 1 <= |date| && date[..|year| + 1] == year + "-"
  }

  /** Which rows a total or a count takes in. */
  datatype Rule =
    | IncomeRows                                  // kind is income
    | NonIncomeRows                               // every kind but income
    | NonIncomeOn(day: string)                    // every kind but income, on one date
    | ExpenseRows                                 // kind is expense
    | ExpenseIn(category: string)                 // expense rows of one category
    | TrendOn(day: string, trendCategory: string) // expense rows of one date, one category or "All"
    | YearExpense(year: string)                   // expense rows of one year
    | YearExpenseOn(year: string, day: string)    // expense rows of one date of that year
    | YearExpenseIn(year: string, category: string) // expense rows of one category in that year

  /** The category filter value of the trend chart that matches every category. */
  const ALL_CATEGORIES: string := "All"

  predicate Selects(r: Rule, t: Transaction) {
    match r
    case IncomeRows => t.kind == INCOME
    case NonIncomeRows => t.kind != INCOME
    case NonIncomeOn(day) => t.kind != INCOME && t.date == day
    case ExpenseRows => t.kind == EXPENSE
    case ExpenseIn(c) => t.kind == EXPENSE && t.category == c
    case TrendOn(day, c) =>
      t.kind == EXPENSE && t.date == day && (c == ALL_CATEGORIES || t.category == c)
    case YearExpense(y) => t.kind == EXPENSE && InYear(t.date, y)
    case YearExpenseOn(y, day) => t.kind == EXPENSE && InYear(t.date, y) && t.date == day
    case YearExpenseIn(y, c) => t.kind == EXPENSE && InYear(t.date, y) && t.category == c
  }

  /** The sum of the amounts of the rows `r` selects. */
  function Total(txs: seq<Transaction>, r: Rule): int {
    if txs == [] then 0
    else Total(txs[..|txs| - 1], r) + (if Selects(r, txs[|txs| - 1]) then txs[|txs| - 1].amount else 0)
  }

  /** The number of rows `r` selects. */
  function Count(txs: seq<Transaction>, r: Rule): nat {
    if txs == [] then 0
    else Count(txs[..|txs| - 1], r) + (if Selects(r, txs[|txs| - 1]) then 1 else 0)
  }

  predicate NonNegativeAmounts(txs: seq<Transaction>) {
    forall i :: 0 <= i < |txs| ==> txs[i].amount >= 0
  }

  predicate UniqueIds(txs: seq<Transaction>) {
    forall i, j :: 0 <= i < j < |txs| ==> txs[i].id != txs[j].id
  }

  /** Every row is income or expense, as the application itself writes them. */
  predicate KnownKinds(txs: seq<Transaction>) {
    forall i :: 0 <= i < |txs| ==> txs[i].kind == INCOME || txs[i].kind == EXPENSE
  }

  /** The list without the rows of one id, in list order:
      `txs.filter(t => t.id !== id)`. */
  function RemoveId(txs: seq<Transaction>, id: int): (r: seq<Transaction>)
    ensures |r| <= |txs|
  {
    if txs == [] then []
    else RemoveId(txs[..|txs| - 1], id) + (if txs[|txs| - 1].id != id then [txs[|txs| - 1]] else [])
  }

  /** The rows kept are exactly the rows of other ids. */
  lemma {:induction false} RemoveIdMembers(txs: seq<Transaction>, id: int)
    ensures forall t :: t in RemoveId(txs, id) <==> t in txs && t.id != id
  {
    if txs != [] {
      var init, last := txs[..|txs| - 1], txs[|txs| - 1];
      RemoveIdMembers(init, id);
      assert txs == init + [last];
    }
  }

  /** Removing keeps the order of the rest: it distributes over concatenation. */
  lemma {:induction false} RemoveIdAppend(a: seq<Transaction>, b: seq<Transaction>, id: int)
    ensures RemoveId(a + b, id) == RemoveId(a, id) + RemoveId(b, id)
    decreases |b|
  {
    if b == [] {
      assert a + b == a;
    } else {
      var ab, init, last := a + b, b[..|b| - 1], b[|b| - 1];
      var tail := if last.id != id then [last] else [];
      assert ab[..|ab| - 1] == a + init;
      assert ab[|ab| - 1] == last;
      assert RemoveId(ab, id) == RemoveId(a + init, id) + tail;
      assert RemoveId(b, id) == RemoveId(init, id) + tail;
      RemoveIdAppend(a, init, id);
    }
  }

  /** Removing an id no row has changes nothing. */
  lemma {:induction false} RemoveAbsentId(txs: seq<Transaction>, id: int)
    requires forall i :: 0 <= i < |txs| ==> txs[i].id != id
    ensures RemoveId(txs, id) == txs
  {
    if txs != [] {
      RemoveAbsentId(txs[..|txs| - 1], id);
      assert txs == txs[..|txs| - 1] + [txs[|txs| - 1]];
    }
  }

  /** Removing rows keeps the remaining ids unique. */
  lemma {:induction false} RemoveIdKeepsUnique(txs: seq<Transaction>, id: int)
    requires UniqueIds(txs)
    ensures UniqueIds(RemoveId(txs, id))
  {
    if txs != [] {
      var init, last := txs[..|txs| - 1], txs[|txs| - 1];
      RemoveIdKeepsUnique(init, id);
      var r := RemoveId(init, id);
      RemoveIdMembers(init, id);
      forall i | 0 <= i < |r| ensures r[i].id != last.id {
        assert r[i] in init;
        var j :| 0 <= j < |init| && init[j] == r[i];
        assert txs[j] == r[i];
      }
    }
  }

  /** Removing the id that only the row at index `i` has drops exactly that row. */
  lemma {:induction false} RemoveOnlyAt(txs: seq<Transaction>, i: nat, id: int)
    requires i < |txs| && txs[i].id == id
    requires forall k :: 0 <= k < |txs| && k != i ==> txs[k].id != id
    ensures RemoveId(txs, id) == txs[..i] + txs[i + 1..]
  {
    var init, last := txs[..|txs| - 1], txs[|txs| - 1];
    if i == |txs| - 1 {
      RemoveAbsentId(init, id);
      assert txs[i + 1..] == [];
    } else {
      RemoveOnlyAt(init, i, id);
      assert init[..i] == txs[..i];
      assert txs[i + 1..] == init[i + 1..] + [last];
    }
  }

  /** With unique ids, removing the id of the row at index `i` drops exactly
      that row. */
  lemma RemoveUniqueAt(txs: seq<Transaction>, i: nat)
    requires UniqueIds(txs) && i < |txs|
    ensures RemoveId(txs, txs[i].id) == txs[..i] + txs[i + 1..]
  {
    RemoveOnlyAt(txs, i, txs[i].id);
  }

  /** Totals are additive over concatenation. */
  lemma {:induction false} TotalAppend(a: seq<Transaction>, b: seq<Transaction>, r: Rule)
    ensures Total(a + b, r) == Total(a, r) + Total(b, r)
    decreases |b|
  {
    if b == [] {
      assert a + b == a;
    } else {
      var ab := a + b;
      assert ab[..|ab| - 1] == a + b[..|b| - 1];
      TotalAppend(a, b[..|b| - 1], r);
    }
  }

  /** One more row adds its amount exactly when it is selected. */
  lemma TotalSnoc(txs: seq<Transaction>, i: nat, r: Rule)
    requires i < |txs|
    ensures Total(txs[..i + 1], r) == Total(txs[..i], r) + (if Selects(r, txs[i]) then txs[i].amount else 0)
    ensures Count(txs[..i + 1], r) == Count(txs[..i], r) + (if Selects(r, txs[i]) then 1 else 0)
  {
    assert txs[..i + 1][..i] == txs[..i];
  }

  /** A rule that selects no row totals zero and counts zero. */
  lemma {:induction false} TotalOfNone(txs: seq<Transaction>, r: Rule)
    requires forall i :: 0 <= i < |txs| ==> !Selects(r, txs[i])
    ensures Total(txs, r) == 0 && Count(txs, r) == 0
  {
    if txs != [] {
      TotalOfNone(txs[..|txs| - 1], r);
    }
  }

  /** A rule that selects a row counts at least one. */
  lemma {:induction false} CountPositive(txs: seq<Transaction>, r: Rule, k: nat)
    requires k < |txs| && Selects(r, txs[k])
    ensures Count(txs, r) > 0
  {
    if k < |txs| - 1 {
      CountPositive(txs[..|txs| - 1], r, k);
    }
  }

  /** With non-negative amounts, a rule that selects fewer rows totals less. */
  lemma {:induction false} TotalMonotone(txs: seq<Transaction>, narrow: Rule, wide: Rule)
    requires NonNegativeAmounts(txs)
    requires forall i :: 0 <= i < |txs| ==> Selects(narrow, txs[i]) ==> Selects(wide, txs[i])
    ensures Total(txs, narrow) <= Total(txs, wide)
  {
    if txs != [] {
      TotalMonotone(txs[..|txs| - 1], narrow, wide);
    }
  }

  /** Two rules that select the same rows total the same. */
  lemma {:induction false} TotalSameRows(txs: seq<Transaction>, r1: Rule, r2: Rule)
    requires forall i :: 0 <= i < |txs| ==> (Selects(r1, txs[i]) <==> Selects(r2, txs[i]))
    ensures Total(txs, r1) == Total(txs, r2)
    ensures Count(txs, r1) == Count(txs, r2)
  {
    if txs != [] {
      var init, last := txs[..|txs| - 1], txs[|txs| - 1];
      forall i | 0 <= i < |init| ensures Selects(r1, init[i]) <==> Selects(r2, init[i]) {
        assert init[i] == txs[i];
      }
      TotalSameRows(init, r1, r2);
      var same := Selects(r1, last);
      assert same == Selects(r2, last);
      assert Total(txs, r1) == Total(init, r1) + (if same then last.amount else 0);
      assert Total(txs, r2) == Total(init, r2) + (if same then last.amount else 0);
      assert Count(txs, r1) == Count(init, r1) + (if same then 1 else 0);
      assert Count(txs, r2) == Count(init, r2) + (if same then 1 else 0);
    }
  }
}

=== FILE: paging.dfy ===
/** The "Recent Activity" list of the dashboard: the filtered transactions
    shown five at a time, with Prev and Next buttons. */
module Paging {

  const ITEMS_PER_PAGE: nat := 5

  /** `Math.ceil(n / ITEMS_PER_PAGE)`: the fewest pages that hold `n` items. */
  function PageCount(n: nat): (c: nat)
    ensures n <= c * ITEMS_PER_PAGE
    ensures c == 0 || (c - 1) * ITEMS_PER_PAGE < n
  {
    (n + ITEMS_PER_PAGE - 1) / ITEMS_PER_PAGE
  }

  /** The Prev and Next buttons are shown only when the items do not fit on
      one page. */
  predicate ShowsControls(n: nat) {
    n > ITEMS_PER_PAGE
  }

  /** A `slice` argument made an index: a negative one counts from the end. */
  function RelativeIndex(x: int, len: nat): (k: nat)
    ensures k <= len
    ensures 0 <= x <= len ==> k == x
  {
    if x < 0 then (if len + x < 0 then 0 else len + x)
    else if x > len then len
    else x
  }

  /** `s.slice(begin, end)`. */
  function Slice<T>(s: seq<T>, begin: int, end: int): (r: seq<T>)
    ensures |r| <= |s|
  {
    var b, e := RelativeIndex(begin, |s|), RelativeIndex(end, |s|);
    if b < e then s[b..e] else []
  }

  /** The items on page `page`, counting from 1. */
  function RecentPage<T>(items: seq<T>, page: int): seq<T> {
    Slice(items, (page - 1) * ITEMS_PER_PAGE, page * ITEMS_PER_PAGE)
  }

  /** Page `page` shows the items from position `(page - 1) * 5` on, at most
      five of them, in list order. */
  lemma RecentPageContents<T>(items: seq<T>, page: int)
    requires page >= 1
    ensures var r, first := RecentPage(items, page), (page - 1) * ITEMS_PER_PAGE;
      |r| <= ITEMS_PER_PAGE &&
      (first < |items| ==> |r| == (if |items| - first < ITEMS_PER_PAGE then |items| - first else ITEMS_PER_PAGE)) &&
      (first >= |items| ==> r == []) &&
      forall k :: 0 <= k < |r| ==> r[k] == items[first + k]
  {
  }

  /** Every page before the last is full, the last one is not empty, and the
      pages after it are. */
  lemma PageFill<T>(items: seq<T>, page: int)
    requires page >= 1
    ensures page < PageCount(|items|) ==> |RecentPage(items, page)| == ITEMS_PER_PAGE
    ensures page == PageCount(|items|) ==> |RecentPage(items, page)| >= 1
    ensures page > PageCount(|items|) ==> RecentPage(items, page) == []
  {
    RecentPageContents(items, page);
  }

  /** Pages 1 to `k` one after the other. */
  function Pages<T>(items: seq<T>, k: nat): seq<T> {
    if k == 0 then [] else Pages(items, k - 1) + RecentPage(items, k)
  }

  lemma {:induction false} PagesArePrefix<T>(items: seq<T>, k: nat)
    ensures Pages(items, k) == items[..if k * ITEMS_PER_PAGE < |items| then k * ITEMS_PER_PAGE else |items|]
  {
    if k > 0 {
      PagesArePrefix(items, k - 1);
      RecentPageContents(items, k);
      var lo := if (k - 1) * ITEMS_PER_PAGE < |items| then (k - 1) * ITEMS_PER_PAGE else |items|;
      var hi := if k * ITEMS_PER_PAGE < |items| then k * ITEMS_PER_PAGE else |items|;
      assert RecentPage(items, k) == items[lo..hi];
      assert items[..lo] + items[lo..hi] == items[..hi];
    }
  }

  /** Reading every page in turn shows each item once, in list order. */
  lemma AllPagesShowTheList<T>(items: seq<T>)
    ensures Pages(items, PageCount(|items|)) == items
  {
    PagesArePrefix(items, PageCount(|items|));
  }

  // ---- the page buttons ----

  datatype Click = PrevClick | NextClick

  /** The page after a click. Prev is disabled on page 1 and Next on the last
      page; a disabled button ignores the click. */
  function AfterClick(page: int, n: nat, c: Click): int {
    match c
    case PrevClick =>
      if page == 1 then page else (if page - 1 < 1 then 1 else page - 1)
    case NextClick =>
      if page == PageCount(n) then page
      else (if page + 1 < PageCount(n) then page + 1 else PageCount(n))
  }

  /** The page after a run of clicks. */
  function AfterClicks(page: int, n: nat, cs: seq<Click>): int
    decreases |cs|
  {
    if cs == [] then page else AfterClicks(AfterClick(page, n, cs[0]), n, cs[1..])
  }

  /** The larger of the current page and the last page. */
  function HighestReachablePage(page: int, n: nat): int {
    if page > PageCount(n) then page else PageCount(n)
  }

  /** From any page, Prev never goes below page 1 and Next never goes past
      the last page. The page is not reset when the filter shrinks the list,
      so a page past the last one (which `PageFill` shows is empty) can be
      current; one Next click then brings it back to the last page. */
  lemma ClickBounds(page: int, n: nat)
    requires ShowsControls(n) && page >= 1
    ensures AfterClick(page, n, PrevClick) >= 1
    ensures AfterClick(page, n, NextClick) <= PageCount(n)
    ensures page > PageCount(n) ==> AfterClick(page, n, NextClick) == PageCount(n)
  {
  }

  /** From any page, a run of clicks never shows a page before the first, nor
      one past both the starting page and the last page; from a page in
      range, it stays in range. */
  lemma {:induction false} ClicksStayInRange(page: int, n: nat, cs: seq<Click>)
    requires ShowsControls(n)
    requires page >= 1
    ensures 1 <= AfterClicks(page, n, cs) <= HighestReachablePage(page, n)
    decreases |cs|
  {
    if cs != [] {
      var next := AfterClick(page, n, cs[0]);
      assert 1 <= next <= HighestReachablePage(page, n);
      ClicksStayInRange(next, n, cs[1..]);
    }
  }

  /** Prev undoes Next and Next undoes Prev, away from the ends. */
  lemma PrevNextInverse(page: int, n: nat)
    requires ShowsControls(n)
    ensures 1 <= page < PageCount(n) ==> AfterClick(AfterClick(page, n, NextClick), n, PrevClick) == page
    ensures 1 < page <= PageCount(n) ==> AfterClick(AfterClick(page, n, PrevClick), n, NextClick) == page
  {
  }
}

=== FILE: text.dfy ===
/** String helpers shared by the model: JavaScript's string order, fixed-width
    and plain decimal numerals, and splitting/joining on a separator. */
module Text {

  /** JavaScript's `a < b` on strings: character by character, and a proper
      prefix comes first. A character here is a code point; JavaScript
      compares UTF-16 code units, which orders the same below U+10000. */
  predicate StrLt(a: string, b: string)
    decreases |a|
  {
    if a == [] then b != []
    else if b == [] then false
    else a[0] < b[0] || (a[0] == b[0] && StrLt(a[1..], b[1..]))
  }

  /** JavaScript's `a <= b` on strings, which is defined as `!(b < a)`. */
  predicate StrLe(a: string, b: string) {
    !StrLt(b, a)
  }

  lemma {:induction false} StrLtIrreflexive(a: string)
    ensures !StrLt(a, a)
    decreases |a|
  {
    if a != [] {
      StrLtIrreflexive(a[1..]);
    }
  }

  lemma {:induction false} StrLtTransitive(a: string, b: string, c: string)
    requires StrLt(a, b) && StrLt(b, c)
    ensures StrLt(a, c)
    decreases |a|
  {
    if a != [] && a[0] == b[0] && b[0] == c[0] {
      StrLtTransitive(a[1..], b[1..], c[1..]);
    }
  }

  lemma {:induction false} StrLtTotal(a: string, b: string)
    ensures a == b || StrLt(a, b) || StrLt(b, a)
    decreases |a|
  {
    if a != [] && b != [] && a[0] == b[0] {
      StrLtTotal(a[1..], b[1..]);
      if a[1..] == b[1..] {
        assert a == [a[0]] + a[1..] && b == [b[0]] + b[1..];
      }
    }
  }

  /** `<=` on strings is transitive. */
  lemma StrLeTransitive(a: string, b: string, c: string)
    requires StrLe(a, b) && StrLe(b, c)
    ensures StrLe(a, c)
  {
    if StrLt(c, a) {
      StrLtTotal(a, b);
      if a == b {
      } else {
        StrLtTransitive(c, a, b);
      }
      StrLtTotal(b, c);
      if b != c {
        StrLtTransitive(c, a, b);
      }
    }
  }

  /** Comparing two concatenations whose first parts have the same length
      compares the first parts, and the second parts only on a tie. */
  lemma {:induction false} StrLtConcat(x: string, u: string, y: string, v: string)
    requires |x| == |y|
    ensures StrLt(x + u, y + v) <==> StrLt(x, y) || (x == y && StrLt(u, v))
    decreases |x|
  {
    if x != [] {
      assert (x + u)[1..] == x[1..] + u;
      assert (y + v)[1..] == y[1..] + v;
      StrLtConcat(x[1..], u, y[1..], v);
      if x[0] == y[0] && x[1..] == y[1..] {
        assert x == [x[0]] + x[1..] && y == [y[0]] + y[1..];
      }
    } else {
      assert x + u == u && y + v == v;
    }
  }

  lemma ConcatCancel(x: string, u: string, y: string, v: string)
    requires |x| == |y| && x + u == y + v
    ensures x == y && u == v
  {
    assert x == (x + u)[..|x|] && y == (y + v)[..|y|];
    assert u == (x + u)[|x|..] && v == (y + v)[|y|..];
  }

  /** No element occurs twice. */
  predicate Distinct<T(==)>(s: seq<T>) {
    forall i, j :: 0 <= i < j < |s| ==> s[i] != s[j]
  }

  // ---- decimal numerals ----

  function Pow10(w: nat): (p: nat)
    ensures p >= 1
  {
    if w == 0 then 1 else 10 * Pow10(w - 1)
  }

  function Digit(n: int): char
    requires 0 <= n < 10
  {
    (48 + n) as char
  }

  predicate IsDigit(c: char) {
    '0' <= c <= '9'
  }

  /** The `w`-digit, zero-padded decimal numeral of `n`. */
  function Pad(n: nat, w: nat): (s: string)
    requires n < Pow10(w)
    ensures |s| == w
    ensures forall i :: 0 <= i < |s| ==> IsDigit(s[i])
  {
    if w == 0 then "" else Pad(n / 10, w - 1) + [Digit(n % 10)]
  }

  lemma {:induction false} PadInjective(a: nat, b: nat, w: nat)
    requires a < Pow10(w) && b < Pow10(w)
    requires Pad(a, w) == Pad(b, w)
    ensures a == b
  {
    if w > 0 {
      ConcatCancel(Pad(a / 10, w - 1), [Digit(a % 10)], Pad(b / 10, w - 1), [Digit(b % 10)]);
      PadInjective(a / 10, b / 10, w - 1);
    }
  }

  /** Zero-padded numerals of one width compare as strings exactly as the
      numbers compare. */
  lemma {:induction false} PadOrder(a: nat, b: nat, w: nat)
    requires a < Pow10(w) && b < Pow10(w)
    ensures StrLt(Pad(a, w), Pad(b, w)) <==> a < b
  {
    if w > 0 {
      var x, y := Pad(a / 10, w - 1), Pad(b / 10, w - 1);
      StrLtConcat(x, [Digit(a % 10)], y, [Digit(b % 10)]);
      PadOrder(a / 10, b / 10, w - 1);
      if x == y {
        PadInjective(a / 10, b / 10, w - 1);
      }
      assert StrLt([Digit(a % 10)], [Digit(b % 10)]) <==> a % 10 < b % 10;
    }
  }

  /** The shortest decimal numeral of `n`, as JavaScript prints an integer. */
  function NatToString(n: nat): (s: string)
    ensures |s| >= 1
    ensures forall i :: 0 <= i < |s| ==> IsDigit(s[i])
  {
    if n < 10 then [Digit(n)] else NatToString(n / 10) + [Digit(n % 10)]
  }

  /** The value a numeral made only of digits denotes. */
  function NumeralValue(s: string): nat
    requires forall i :: 0 <= i < |s| ==> IsDigit(s[i])
  {
    if s == [] then 0
    else
      var c := s[|s| - 1];
      assert IsDigit(c);
      10 * NumeralValue(s[..|s| - 1]) + (c as int - '0' as int)
  }

  lemma {:induction false} NatToStringValue(n: nat)
    ensures NumeralValue(NatToString(n)) == n
  {
    if n >= 10 {
      var s := NatToString(n);
      assert s[..|s| - 1] == NatToString(n / 10);
      NatToStringValue(n / 10);
    }
  }

  /** JavaScript's `String(i)` for an integer `i`. */
  function IntToString(i: int): (s: string)
    ensures forall k :: 0 <= k < |s| ==> IsDigit(s[k]) || s[k] == '-'
  {
    if i < 0 then "-" + NatToString(-i) else NatToString(i)
  }

  // ---- joining and splitting on a separator ----

  /** JavaScript's `lines.join(sep)`. */
  function Join(lines: seq<string>, sep: char): string {
    if |lines| == 0 then ""
    else if |lines| == 1 then lines[0]
    else lines[0] + [sep] + Join(lines[1..], sep)
  }

  /** JavaScript's `s.split(sep)` for a one-character separator. */
  function Split(s: string, sep: char): (r: seq<string>)
    ensures |r| >= 1
    decreases |s|
  {
    if s == [] then [""]
    else if s[0] == sep then [""] + Split(s[1..], sep)
    else
      var rest := Split(s[1..], sep);
      [[s[0]] + rest[0]] + rest[1..]
  }

  lemma {:induction false} SplitNoSeparator(a: string, sep: char)
    requires sep !in a
    ensures Split(a, sep) == [a]
    decreases |a|
  {
    if a != [] {
      SplitNoSeparator(a[1..], sep);
      assert a == [a[0]] + a[1..];
    }
  }

  lemma {:induction false} SplitAtSeparator(a: string, b: string, sep: char)
    requires sep !in a
    ensures Split(a + [sep] + b, sep) == [a] + Split(b, sep)
    decreases |a|
  {
    var s := a + [sep] + b;
    if a == [] {
      assert s[0] == sep && s[1..] == b;
    } else {
      assert s[0] == a[0] && s[1..] == a[1..] + [sep] + b;
      SplitAtSeparator(a[1..], b, sep);
      assert a == [a[0]] + a[1..];
    }
  }

  /** Splitting a join gives the pieces back when no piece holds the separator. */
  lemma {:induction false} SplitJoin(lines: seq<string>, sep: char)
    requires |lines| >= 1
    requires forall i :: 0 <= i < |lines| ==> sep !in lines[i]
    ensures Split(Join(lines, sep), sep) == lines
  {
    if |lines| == 1 {
      SplitNoSeparator(lines[0], sep);
    } else {
      SplitAtSeparator(lines[0], Join(lines[1..], sep), sep);
      SplitJoin(lines[1..], sep);
      assert lines == [lines[0]] + lines[1..];
    }
  }
}
